=== FILE: README.md ===
# Library management: book entry form and report views, in Dafny

This project models the core of a small Django library-management
application. It covers the book entry form (`BookForm` in
`library/forms.py`) and the read-only report views (`library/views.py`).

- **Book entry form.** The model covers the form's validation: the
  required fields (title, ISBN, publisher, publication date, the total
  copies, and as written the author choice and the available copies), the author and category
  choices, the ISBN shape check `clean_isbn`, and the cross-field `clean`. It also covers the record-creation steps of
  `save` against a store of authors, categories and books: get-or-create
  of the author, the slug de-duplication loop, the parsing of the
  comma-separated new-category text with a get-or-create per name, and the
  final many-to-many save. `book_add` is modelled as "validate, then save".
- **Report views.** The model covers the dashboard counters and top-five
  lists, the book list with its search and category filter, the book page,
  the member list and member page, the loan list with its overdue marks,
  the overdue page, the author and category lists, and the global search.

The project has six modules:

| file | module | what it holds |
|---|---|---|
| `records.dfy` | `Records` | the records the core reads, plus `Option`, `Result` and the ORM errors |
| `text.dfy` | `Text` | the string operations the code relies on: `icontains`, `strip`, `split`, `replace`, decimal rendering |
| `query.dfy` | `Query` | sequence counterparts of `filter`, `count`, `get`, `order_by` and slicing |
| `book_form.dfy` | `BookForm` | form validation |
| `book_store.dfy` | `BookStore` | `save` and `book_add`, as a `Store` class whose methods update its tables |
| `views.dfy` | `Views` | the views, as functions over the tables they read; the loops of `member_list`, `loan_list` and `overdue_loans` are methods |

How the model reads the application:

- **Categories per book.** The form treats a book's categories as
  many-valued (`library/forms.py:18`, `:174`). `library/models.py:8`
  declares a single nullable foreign key. The model follows the form and
  the views, so a book carries a set of category ids.
- **Ids.** The store hands out ids 1, 2, 3, … in insertion order, and
  nothing is deleted. The store's invariant `Consistent` says that ids are
  positions and that every book refers only to a stored author and stored
  categories.
- **Inputs.** Each view takes the tables it reads and the current date
  (`today`, a day number) as parameters. An absent `q` parameter and an
  empty one are both `""`, because the code tests the query for
  truthiness.

Where the code does something other than what its own comments, labels
and help texts announce, the model follows the code. The differences are:

- **ISBN check.** The comment at `library/forms.py:134` announces "10 or
  13 digits, possibly with X at end for ISBN-10", and the field's
  placeholder at `:69` asks for 10 or 13 digits. The condition at `:135`
  never looks at the last character, and the branch at `:136-137` accepts
  any first nine characters before an `X`.
- **Optional fields.** The comment at `:111` and the label "Or Add New
  Author" at `:35` offer a new author name instead of a selected author.
  The comments at `:95` and `:123` let an empty `available_copies` default
  to the total. In the code both fields are required: the author choice at
  `:8-15` is declared without `required=False`, and `available_copies` is
  a model field without `blank=True` (`library/models.py:12`).
- **Typed-in categories.** The placeholder at `:53` and the help text at
  `:56` invite several new categories, the comment at `:168` says they are
  handled, and `:174` adds each one to the book. Then `save_m2m` at `:177`
  replaces the book's categories with the selected ones.
- **A total of zero.** The copies rule at `:119-121` runs only when
  `total_copies` is truthy, so with a total of 0 any available count
  passes (`BookForm.ZeroTotalSkipsCopiesRule`). The widget's minimum of 1
  at `:83` is a browser hint; the model field (`library/models.py:11`)
  accepts 0. `Store.BookAdd` therefore promises available ≤ total only
  for a non-zero total. A total of 0 with no available count is also the
  only validated form that leaves a NOT NULL column empty
  (`BookStore.ValidatedMissingColumn`).

The first three differences are listed under "Findings". Both the code as
written and the evidently intended behaviour are defined, and the
`Behaviour` parameter (`AS_WRITTEN` or `INTENDED`) selects between them.

## Model

| member | source | states |
|---|---|---|
| Text.IContains | library/views.py:52-56 | an empty query matches every text, and a text never contains a longer one |
| Text.ContainsIContains | library/views.py:52-56 | an exact-case match is also an `icontains` match |
| Text.IContainsIgnoresCase | library/views.py:52-56 | `icontains` gives the same answer whatever the letter case of either side |
| Text.IContainsSelf | library/views.py:53 | a text contains any text equal to it up to case |
| Text.Without | library/forms.py:132 | `replace(c, '')` removes every `c` and keeps every other character |
| Text.Strip | library/forms.py:171 | `strip()` returns a contiguous slice of the input with only whitespace cut at both ends, and the result neither starts nor ends with whitespace |
| Text.StripIdempotent | library/forms.py:171 | stripping twice is stripping once |
| Text.Split | library/forms.py:171 | `split(',')` returns at least one piece and no piece contains the separator |
| Text.JoinSplit | library/forms.py:171 | joining the pieces of `split` with the separator gives back the input |
| Text.NatToString | library/forms.py:161 | the counter in the slug suffix is rendered as decimal digits |
| Text.ParseNatToString | library/forms.py:161 | reading the rendered counter back gives the counter |
| Text.NatToStringInjective | library/forms.py:161 | distinct counters render differently |
| Query.Filter | library/views.py:18 | `filter(p)` keeps exactly the rows that satisfy `p`, and never more rows than stored |
| Query.FilterSize | library/views.py:18-22 | `.count()` of a filter equals the number of stored positions whose row passes it |
| Query.FilterMonotone | library/views.py:18-22 | a stricter filter never counts more rows |
| Query.Get | library/views.py:72 | `get` returns the single matching row; no match is DoesNotExist, several are MultipleObjectsReturned |
| Query.Take | library/views.py:25 | the slice `[:k]` is the first `min(k, n)` rows |
| Query.SortBy | library/views.py:25 | `order_by` returns a permutation of its rows |
| Query.SortBySorted | library/views.py:25 | `order_by` returns its rows in the requested order |
| Query.TopK | library/views.py:25-31 | `order_by(...)[:k]` keeps `min(k, n)` of the rows, in order, and no row left out ranks strictly before a kept one |
| BookForm.Clean | library/forms.py:104-127 | no author and both authors are rejected, in that order; available above a non-zero total is rejected; an absent available count defaults to a non-zero total; otherwise the data passes unchanged |
| BookForm.ZeroTotalSkipsCopiesRule | library/forms.py:119-121 | a total of 0 is falsy, so any available count passes |
| BookForm.CleanIsbnAsWritten | library/forms.py:129-141 | after removing hyphens and spaces, accepts exactly 10 or 13 characters with all but the last a digit, or 10 characters ending in X or x; the input is returned unchanged |
| BookForm.CleanIsbn | library/forms.py:129-141 | intended check: exactly 13 digits, or 9 digits followed by a digit, X or x; everything it accepts the code also accepts |
| BookForm.IsbnAsWrittenIgnoresCheckCharacter | library/forms.py:135-137 | once the first nine of ten characters are digits the code accepts any last character, while the intended check accepts only a digit, X or x |
| BookForm.IsbnCheckCharacterWitness | library/forms.py:135 | "123456789Z" passes the check as written and fails the intended one |
| BookForm.IsbnLettersBeforeXWitness | library/forms.py:136-137 | "ABCDEFGHIX" passes the check as written and fails the intended one |
| BookForm.IsbnIgnoresSeparators | library/forms.py:132 | inserting a hyphen or a space anywhere never changes either check's verdict |
| BookForm.IsbnShortAndXExamples | library/forms.py:129-141 | "123456789X" is valid and "12345" is rejected with the length error, by the check as written and by the intended one |
| BookForm.HyphenatedIsbn10 | library/forms.py:131-141 | ten digits printed in four hyphen-separated groups pass both checks |
| BookForm.HyphenatedIsbnExample | library/forms.py:131-141 | "0-306-40615-2" passes both checks |
| BookForm.FieldErrors | library/forms.py:6-61 | an error for each empty required field (title, ISBN, publisher, publication date, total, and as written the author choice and available count), for a choice that is not stored, and for an ISBN failing the check; an empty ISBN is reported as required, never as of the wrong length |
| BookForm.Validate | library/forms.py:6-141 | the form is valid iff there is no field error and `clean` passes; the errors shown are the field errors plus `clean`'s error; a valid result keeps every submitted value except the available count; a submitted available count is kept, and an absent one becomes the total when the total is non-zero and stays absent otherwise; it has every required field, one author source, a stored author, a passing ISBN, stored categories, and available at most a non-zero total |
| BookForm.EmptyRequiredFieldRejected | library/models.py:5-10 | an empty title, ISBN or publisher, or a missing publication date, makes the form invalid with that field reported as required |
| BookForm.AsWrittenRejectsNewAuthorOnly | library/forms.py:8-15 | the required author choice makes a form that only names a new author invalid |
| BookForm.AsWrittenRejectsMissingAvailable | library/models.py:12 | a form with an empty available count is invalid as written, so the default in `clean` never reaches a saved book |
| BookForm.IntendedAcceptsNewAuthorWithDefaultCopies | library/forms.py:111-125 | with both fields optional, a form naming only a new author and no available count is valid, and available defaults to the total |
| BookForm.StrippedNonEmpty | library/forms.py:171 | the list comprehension keeps exactly the non-empty stripped pieces, none starting or ending with whitespace |
| BookForm.StrippedLacks | library/forms.py:171 | stripping never introduces a character absent from every piece |
| BookForm.CategoryNames | library/forms.py:171 | the parsed names are the non-empty stripped comma-separated pieces; none is empty, none contains a comma, none has whitespace at either end |
| BookStore.Named | library/forms.py:149-150 | the lookup by name keeps exactly the records carrying that name |
| BookStore.GetOrCreate | library/forms.py:149-152 | `get_or_create` appends the new record iff the name is absent; one match is returned untouched; several raise MultipleObjectsReturned and add nothing |
| BookStore.GetOrCreateReuses | library/forms.py:149-152 | an existing record with the name is returned as it is (its biography is not overwritten) and the table does not change |
| BookStore.GetOrCreateIdempotent | library/forms.py:149-152 | a second call with the same name adds nothing and returns what the first returned |
| BookStore.AtMostOneNamed | library/forms.py:149-150 | without duplicate names, at most one record matches a name |
| BookStore.GetOrCreateKeepsNamesUnique | library/forms.py:149-152 | without duplicate names, `get_or_create` succeeds and keeps the names unique |
| BookStore.SlugCandidate | library/forms.py:158-162 | every candidate begins with the base, and only the first candidate is the base itself |
| BookStore.SlugCandidateInjective | library/forms.py:158-162 | distinct counters give distinct candidate slugs |
| BookStore.FirstFreeSlugNotTaken | library/forms.py:160-163 | the chosen slug is not used by any book |
| BookStore.FirstFreeSlugUnique | library/forms.py:156-163 | the first free candidate is unique, so the loop's result is determined |
| BookStore.FirstFreeSlugCases | library/forms.py:156-163 | an untaken base is used as it is; a taken base whose "-1" form is free gets that form |
| BookStore.ResolveAll | library/forms.py:172-174 | resolving only appends to the category table, at most one category per name, and every created category carries one of the names |
| BookStore.ResolveAllStep | library/forms.py:172-174 | each name is resolved against the table left by the names before it |
| BookStore.ResolveAllStops | library/forms.py:172-174 | after a failed get-or-create the later names change nothing |
| BookStore.ResolveAllFailure | library/forms.py:172-174 | the only error resolving stops at is MultipleObjectsReturned |
| BookStore.ResolveAllSucceeds | library/forms.py:172-174 | without duplicate category names, resolving never fails and keeps names unique |
| BookStore.ResolveAllCovers | library/forms.py:172-174 | every parsed name has a category with that name afterwards |
| BookStore.ResolveAllKeepsTable | library/forms.py:172-173 | when every name already exists, no category is created |
| BookStore.ResolveAllIds | library/forms.py:172-174 | the ids attached are exactly those of the categories carrying the parsed names |
| BookStore.ResolveAllIdempotent | library/forms.py:172-174 | resolving the same names again changes nothing and attaches the same categories |
| BookStore.SavedCategories | library/forms.py:177 | the saved categories always include the selected ones and come only from the selected and the added ones; as written an added category that was not selected is dropped, as intended every added one stays |
| BookStore.ValidatedMissingColumn | library/forms.py:166 | after validation the only NOT NULL column the insert can find empty is the available count, and only when the total is 0 and no available count was given |
| BookStore.AsWrittenDropsNewCategories | library/forms.py:174-177 | as written, a category created for a typed-in name is added and then dropped by `save_m2m` unless it was also selected |
| BookStore.IntendedAttachesEveryName | library/forms.py:168-177 | intended: every selected category and a category for every typed-in name end up on the book |
| BookStore.UniqueNamesLetSaveProceed | library/forms.py:147-174 | without duplicate author or category names, neither the author lookup nor any category lookup of `save` can fail |
| BookStore.Store.GetOrCreateAuthor | library/forms.py:149-153 | the author table becomes the `get_or_create` result; a returned author carries the name and is stored; the invariant holds |
| BookStore.Store.GetOrCreateCategory | library/forms.py:173 | the category table becomes the `get_or_create` result; a returned category carries the name and is stored |
| BookStore.Store.UniqueSlug | library/forms.py:155-163 | the loop ends with the first of base, base-1, base-2, … that no book uses; an unused base is kept |
| BookStore.Store.AttachNewCategories | library/forms.py:170-174 | the loop's tables and attached ids equal the left-to-right resolution of the names, stopping at the first error |
| BookStore.Store.InsertBook | library/forms.py:143-166 | the author table becomes the `get_or_create` result for a typed-in name and is unchanged otherwise; the slug is chosen and the book is inserted with the next id and the submitted values; an ambiguous author name is MultipleObjectsReturned and an empty NOT NULL column (author, publication date, copy counts) is IntegrityError, both leaving the books unchanged |
| BookStore.Store.SaveCategories | library/forms.py:168-177 | after the insert, typed-in categories are resolved and added, then the book's categories become the selected ones (intended: selected plus added) |
| BookStore.Store.Save | library/forms.py:143-179 | `save(commit=True)`: the author table as `get_or_create` leaves it; each error case and the state it leaves, a failed category lookup leaving the inserted book with the categories added so far; on success one book is appended with the next id, the submitted values, the right author and slug, and the categories as `save_m2m` leaves them |
| BookStore.Store.AddValidated | library/views.py:205-208 | a valid form is saved with the cleaned values, a fresh slug, the categories `save_m2m` leaves and the author table `get_or_create` leaves; when `save` raises, the books and categories are what `save` left at the point it stopped; without duplicate names it is saved unless a total of 0 leaves available empty |
| BookStore.Store.BookAdd | library/views.py:202-210 | invalid forms are rejected with their errors and change nothing; a saved book matches the cleaned data, has a fresh slug and the categories `save_m2m` leaves; the author table ends as `get_or_create` leaves it; when `save` raises, the books and categories are what `save` left at the point it stopped (an ambiguous category name leaves the inserted book with the categories added so far); without duplicate names a valid form is saved unless a total of 0 leaves available empty |
| Views.ActiveLoanCount | library/views.py:18 | the count of loans without a return date |
| Views.OverdueLoanCount | library/views.py:19-22 | the count of loans still out and due before today |
| Views.OverdueAtMostActive | library/views.py:18-22 | the dashboard never shows more overdue than active loans |
| Views.RecentLoans | library/views.py:25 | five (or all) loans, latest issue date first, and no loan left out was issued later than one shown |
| Views.RecentReturns | library/views.py:26 | only returned loans, five or all of them, none repeated, latest return first, and no returned loan left out came back later than one shown |
| Views.WithLoanCounts | library/views.py:29-30 | every book annotated with the number of its loans |
| Views.PopularBooks | library/views.py:29-31 | five (or all) annotated books, none repeated, most loans first, and no book left out has more loans than one shown |
| Views.DashboardOf | library/views.py:14-42 | the book and member totals; the active and overdue counts are `ActiveLoanCount` and `OverdueLoanCount`, with overdue ≤ active ≤ all loans; the three lists are `RecentLoans`, `RecentReturns` and `PopularBooks`, each of at most five |
| Views.BookList | library/views.py:45-69 | a book is listed iff it is stored, matches a non-empty query on title, author name or ISBN, and is in the requested category; no stored book is listed twice; with neither filter every book is listed, in storage order |
| Views.BookMatchesIgnoresCase | library/views.py:52-56 | the book search is insensitive to the case of the query |
| Views.BookFoundByTitle | library/views.py:51-56 | searching for a book's own title lists that book |
| Views.Search | library/views.py:171-199 | no query gives no results; otherwise each list is the first up to ten matching books, members or authors in storage order |
| Views.SearchListsAllFewMatches | library/views.py:177-181 | with ten or fewer matching books, every match is listed |
| Query.FilterSubMultiset | library/views.py:74 | `filter` never repeats a row |
| Views.LatestLoansOf | library/views.py:74 | min(10, n) of the book's loans, none repeated, latest first, with no loan of the book left out issued later than one kept |
| Views.PageOf | library/views.py:73-81 | the page of a found book shows its loans still out, none repeated, its latest loans as `LatestLoansOf` states, and availability iff a copy is on the shelf |
| Views.BookDetail | library/views.py:71-82 | the page is returned iff exactly one book has the slug, else DoesNotExist or MultipleObjectsReturned; its active loans, none repeated; up to ten of its loans, drawn from the stored loans without repetition, latest first, none of its loans left out issued later than one shown; available iff a copy is on the shelf |
| Views.ActiveAtMostTotal | library/views.py:99-100 | a member never has more loans out than loans taken |
| Views.ListedMembers | library/views.py:88-95 | a member is listed iff stored and matching a non-empty query on first name, last name or e-mail; no stored member is listed twice |
| Views.MemberList | library/views.py:85-106 | the loop annotates each listed member, in order, with its active and total loan counts, active never above total |
| Views.SumOfFilter | library/views.py:119 | summing the unpaid fines equals adding up the amounts of the fines that pass the filter |
| Views.Sum | library/views.py:119 | amounts that are never negative add up to a total that is not negative |
| Views.MemberDetail | library/views.py:108-121 | the page is returned iff exactly one member has the key, else DoesNotExist or MultipleObjectsReturned; its active loans, none repeated; all its loans latest first; exactly its unpaid fines, none repeated, and their total |
| Views.ActiveByDue | library/views.py:125 | a permutation of the loans still out, earliest due first |
| Views.LoanList | library/views.py:124-136 | the loop marks every active loan, in due order, overdue iff due before today, with today minus the due date as the days late, else 0 |
| Views.OverdueByDue | library/views.py:140-143 | a permutation of the loans still out and due before today, earliest due first |
| Views.OverdueLoans | library/views.py:138-151 | the loop lists exactly those loans, in due order, each at least one day late and never returned |
| Views.OverdueRowsAreMarkedRows | library/views.py:124-151 | the loan list marks as overdue exactly the loans the overdue page shows |
| Views.NameLeTotal | library/views.py:155 | any two names compare under the name order |
| Views.NameLeTransitive | library/views.py:155 | the name order is transitive |
| Views.NameLePrefix | library/views.py:155 | a name sorts before any longer name it begins |
| Views.AuthorRows | library/views.py:155 | every author in storage order, annotated with the number of its books |
| Views.CategoryRows | library/views.py:163 | every category in storage order, annotated with the number of its books |
| Views.AuthorList | library/views.py:154-160 | a permutation of the annotated authors, sorted by name |
| Views.CategoryList | library/views.py:162-168 | a permutation of the annotated categories, sorted by name |

## Left out

- Widget and attribute declarations, the placeholder tweak in `__init__`, `AuthorForm` and `CategoryForm` (`library/forms.py:6-102`, `182-208`): presentation only.
- `index`, `member_add`, `loan_issue` and `loan_return` (`library/views.py:11-12`, `220-227`): a redirect and template renders with no logic. The GET path of `book_add` only renders an empty form and is not modelled.
- Rendering, `messages` and redirects: the views' results are the context values. `select_related` and `prefetch_related` only affect performance.
- `library/urls.py`, `library/jinja2.py` and `library/admin.py` are not part of this model.
- Storage constraints: unique ISBN and slug, and `max_length`. Deletion and its cascades are also left out; no modelled operation deletes.
- BookForm.Validate: does not model `max_length` on text fields, date parsing, or integer parsing of the copy counts. A submission arrives already converted, and a non-numeric count is modelled as absent.
- Views.BookList: the `category` parameter is `Option<nat>`. The code passes the raw string to `category__id`, where a non-numeric value raises an error instead of filtering.
- Views.NameLeTotal: names are compared character by character. The database may order `order_by('name')` by a collation.
- `str.isdigit` and `str.isspace` are modelled on ASCII characters only; other Unicode digits and white space are not.
- The `Fine` model is not part of this model's sources; its `amount` is an integer here, so fractional amounts are not modelled.
- Case folding is ASCII only. `icontains` and `upper()` on other Unicode letters are not modelled.
- Views.Search: querysets without `order_by` (here and in `book_list` and `member_list`) are read in storage order. The database fixes no order for them, so which ten rows `[:10]` returns is not determined by the program; the model picks the first ten stored matches.
- Views.RecentLoans: rows that tie under `order_by` keep their storage order. The database leaves their order unspecified, so no contract depends on it. The same holds for the other sorted lists.
- The current date (`timezone.now().date()`) is the parameter `today`, and dates are day numbers.
- `slugify` is a function parameter of `save`, and Django's slug rules are not modelled.
- `save` runs without a transaction. A failure after the insert leaves what was written before it, as in the code.

## Findings

| source | as written | input that shows it | evidently intended | confidence | as-written member | corrected member |
|---|---|---|---|---|---|---|
| library/forms.py:135-137 | `isbn_clean[:-1].isdigit()` accepts any last character, and the X branch accepts any first nine characters | "123456789Z"; "ABCDEFGHIX" | 13 digits, or 9 digits followed by a digit or X/x | high; not executed | BookForm.IsbnCheckCharacterWitness | BookForm.CleanIsbn |
| library/forms.py:8-15 | the `author` choice field is required, so a form that only names a new author never validates and the new-author branch of `save` is unreachable | no author selected, new author name "Ann" | the author choice optional when a new author name is given | high; not executed | BookForm.AsWrittenRejectsNewAuthorOnly | BookForm.IntendedAcceptsNewAuthorWithDefaultCopies |
| library/models.py:12 | `available_copies` is a required form field, so `clean` defaulting it to the total never applies | total 3, available empty | available optional, defaulting to the total | high; not executed | BookForm.AsWrittenRejectsMissingAvailable | BookForm.IntendedAcceptsNewAuthorWithDefaultCopies |
| library/forms.py:174-177 | `save_m2m` sets the categories to the selected ones after the typed-in categories were added, dropping them | new categories "Poetry", none selected: the saved book has no category | every typed-in category stays attached next to the selected ones | medium (reads the category field as many-to-many); not executed | BookStore.AsWrittenDropsNewCategories | BookStore.IntendedAttachesEveryName |

=== FILE: book_form.dfy ===
/** The validation rules of the book entry form (`BookForm` in
    library/forms.py): the field-level checks that run first, the ISBN shape
    check `clean_isbn`, the cross-field `clean`, and the parsing of the
    comma-separated new-category text that `save` performs. */
module BookForm {
  import opened Records
  import opened Text

  /** The submitted values after each field's own conversion: an absent
      number, date or selection is `None`; absent text is "" (text fields
      strip surrounding whitespace, so blank text is "" too). */
  datatype Submission = Submission(
    title: string,
    author: Option<nat>,
    isbn: string,
    categoryIds: set<nat>,
    publisher: string,
    publishedDate: Option<int>,
    totalCopies: Option<nat>,
    availableCopies: Option<nat>,
    newAuthorName: string,
    newAuthorBiography: string,
    newCategories: string)

  /** The form's fields that can fail their own cleaning. */
  datatype Field = Title | AuthorChoice | Isbn | CategoryChoice | Publisher | PublishedDate
                 | TotalCopies | AvailableCopies

  datatype FormError =
    | Required(field: Field)
    | InvalidChoice(field: Field)
    | IsbnLength        // "ISBN must be 10 or 13 digits long."
    | NoAuthor          // "Please select an existing author or provide a new author name."
    | BothAuthors       // "... either an existing author OR create a new one, not both."
    | TooManyAvailable  // "Available copies cannot exceed total copies."

  /** Python truthiness of an optional count: present and non-zero. */
  predicate Truthy(n: Option<nat>) {
    n.Some? && n.value != 0
  }

  /** Exactly one way of naming the author is used. */
  predicate OneAuthorSource(d: Submission) {
    d.author.Some? != (d.newAuthorName != "")
  }

  /** `clean`: the author-source checks in order, then the copies rule, then
      the defaulting of an absent available count to a non-zero total. The
      cleaned data is returned rather than updated in place. */
  function Clean(d: Submission): (r: Result<Submission, FormError>)
    ensures r == Err(NoAuthor) <==> d.author.None? && d.newAuthorName == ""
    ensures r == Err(BothAuthors) <==> d.author.Some? && d.newAuthorName != ""
    ensures r == Err(TooManyAvailable) <==>
      OneAuthorSource(d) && d.totalCopies.Some? && d.totalCopies.value != 0 &&
      d.availableCopies.Some? && d.availableCopies.value > d.totalCopies.value
    ensures r.Err? ==> r.error == NoAuthor || r.error == BothAuthors || r.error == TooManyAvailable
    ensures r.Ok? ==> r.value == d.(availableCopies := r.value.availableCopies)
    ensures r.Ok? && d.availableCopies.Some? ==> r.value.availableCopies == d.availableCopies
    ensures r.Ok? && d.availableCopies.None? && d.totalCopies.Some? && d.totalCopies.value != 0 ==>
      r.value.availableCopies == d.totalCopies
    ensures r.Ok? && d.totalCopies.Some? && d.totalCopies.value != 0 ==>
      r.value.availableCopies.Some? && r.value.availableCopies.value <= d.totalCopies.value
    ensures r.Ok? && !(Truthy(d.totalCopies) && d.availableCopies.None?) ==> r.value == d
  {
    if d.author.None? && d.newAuthorName == "" then Err(NoAuthor)
    else if d.author.Some? && d.newAuthorName != "" then Err(BothAuthors)
    else if Truthy(d.totalCopies) && d.availableCopies.Some?
         && d.availableCopies.value > d.totalCopies.value then Err(TooManyAvailable)
    else if Truthy(d.totalCopies) && d.availableCopies.None? then Ok(d.(availableCopies := d.totalCopies))
    else Ok(d)
  }

  /** A total of zero is falsy, so the copies rule is skipped and any
      available count passes. */
  lemma ZeroTotalSkipsCopiesRule(d: Submission)
    requires OneAuthorSource(d)
    requires d.totalCopies == Some(0) && d.availableCopies.Some?
    ensures Clean(d) == Ok(d)
  {
  }

  /** The ISBN with hyphens and spaces removed, the form `clean_isbn` checks. */
  function IsbnCore(isbn: string): string {
    Without(Without(isbn, '-'), ' ')
  }

  /** `clean_isbn` as written: length 10 or 13 with every character but the
      last a digit, or length 10 ending in X or x. The input is returned
      unchanged. */
  function CleanIsbnAsWritten(isbn: string): (r: Result<string, FormError>)
    ensures var s := IsbnCore(isbn);
      r.Ok? <==>
        ((|s| == 10 || |s| == 13) && forall i :: 0 <= i < |s| - 1 ==> IsDigit(s[i]))
        || (|s| == 10 && (s[9] == 'X' || s[9] == 'x'))
    ensures r.Ok? ==> r.value == isbn
    ensures r.Err? ==> r.error == IsbnLength
  {
    var s := IsbnCore(isbn);
    if !((|s| == 10 || |s| == 13) && (IsDigits(s[..|s| - 1]) || IsDigits(s))) then
      if |s| == 10 && UpperChar(s[|s| - 1]) == 'X' then Ok(isbn) else Err(IsbnLength)
    else
      Ok(isbn)
  }

  /** The ISBN shape the check evidently means: 13 digits, or 9 digits
      followed by a digit or an X check character. */
  function CleanIsbn(isbn: string): (r: Result<string, FormError>)
    ensures var s := IsbnCore(isbn);
      r.Ok? <==>
        (|s| == 13 && forall i :: 0 <= i < 13 ==> IsDigit(s[i]))
        || (|s| == 10 && (forall i :: 0 <= i < 9 ==> IsDigit(s[i]))
            && (IsDigit(s[9]) || s[9] == 'X' || s[9] == 'x'))
    ensures r.Ok? ==> r.value == isbn && CleanIsbnAsWritten(isbn).Ok?
    ensures r.Err? ==> r.error == IsbnLength
  {
    var s := IsbnCore(isbn);
    if (|s| == 13 && IsDigits(s))
       || (|s| == 10 && IsDigits(s[..9]) && (IsDigit(s[9]) || UpperChar(s[9]) == 'X'))
    then Ok(isbn)
    else Err(IsbnLength)
  }

  lemma {:induction false} WithoutAbsent(s: string, c: char)
    requires c !in s
    ensures Without(s, c) == s
  {
    if s != [] {
      WithoutAbsent(s[1..], c);
    }
  }

  lemma {:induction false} WithoutConcat(a: string, b: string, c: char)
    ensures Without(a + b, c) == Without(a, c) + Without(b, c)
  {
    if a != [] {
      assert (a + b)[1..] == a[1..] + b;
      WithoutConcat(a[1..], b, c);
    } else {
      assert a + b == b;
    }
  }

  lemma IsbnCoreOfPlain(s: string)
    requires '-' !in s && ' ' !in s
    ensures IsbnCore(s) == s
  {
    WithoutAbsent(s, '-');
    WithoutAbsent(s, ' ');
  }

  /** As written, once the first nine characters of a 10-character ISBN are
      digits the last one is never looked at; the shape rule admits only a
      digit or an X there. */
  lemma IsbnAsWrittenIgnoresCheckCharacter(isbn: string)
    requires |IsbnCore(isbn)| == 10
    requires forall i :: 0 <= i < 9 ==> IsDigit(IsbnCore(isbn)[i])
    ensures CleanIsbnAsWritten(isbn).Ok?
    ensures CleanIsbn(isbn).Ok? <==> var c := IsbnCore(isbn)[9]; IsDigit(c) || c == 'X' || c == 'x'
  {
  }

  /** "123456789Z" passes as written and fails the shape rule. */
  lemma IsbnCheckCharacterWitness(isbn: string)
    requires isbn == "123456789Z"
    ensures CleanIsbnAsWritten(isbn).Ok? && CleanIsbn(isbn).Err?
  {
    IsbnCoreOfPlain(isbn);
    assert forall i :: 0 <= i < 9 ==> IsDigit(isbn[i]);
    assert !IsDigit(isbn[9]);
  }

  /** As written, a trailing X admits any first nine characters:
      "ABCDEFGHIX" passes and fails the shape rule. */
  lemma IsbnLettersBeforeXWitness(isbn: string)
    requires isbn == "ABCDEFGHIX"
    ensures CleanIsbnAsWritten(isbn).Ok? && CleanIsbn(isbn).Err?
  {
    IsbnCoreOfPlain(isbn);
    assert isbn[9] == 'X' && !IsDigit(isbn[0]);
  }

  lemma WithoutSkips(a: string, b: string, c: char, sep: char)
    ensures Without(a + [sep] + b, c) == Without(a, c) + Without([sep], c) + Without(b, c)
  {
    WithoutConcat(a + [sep], b, c);
    WithoutConcat(a, [sep], c);
  }

  lemma WithoutSingle(sep: char, c: char)
    ensures Without([sep], c) == if sep == c then [] else [sep]
  {
    assert [sep][1..] == [];
  }

  lemma WithoutSkipsOwn(a: string, b: string, c: char)
    ensures Without(a + [c] + b, c) == Without(a + b, c)
  {
    WithoutSkips(a, b, c, c);
    WithoutConcat(a, b, c);
    WithoutSingle(c, c);
  }

  lemma IsbnCoreSkipsSeparator(a: string, b: string, sep: char)
    requires sep == '-' || sep == ' '
    ensures IsbnCore(a + [sep] + b) == IsbnCore(a + b)
  {
    if sep == '-' {
      WithoutSkipsOwn(a, b, '-');
    } else {
      WithoutSkips(a, b, '-', sep);
      WithoutConcat(a, b, '-');
      WithoutSingle(sep, '-');
      var x, y := Without(a, '-'), Without(b, '-');
      assert Without(a + [sep] + b, '-') == x + [sep] + y;
      WithoutSkipsOwn(x, y, ' ');
    }
  }

  /** Hyphens and spaces may stand anywhere in an ISBN: inserting one never
      changes the verdict, as written or intended. */
  lemma IsbnIgnoresSeparators(a: string, b: string, sep: char)
    requires sep == '-' || sep == ' '
    ensures CleanIsbn(a + [sep] + b).Ok? == CleanIsbn(a + b).Ok?
    ensures CleanIsbnAsWritten(a + [sep] + b).Ok? == CleanIsbnAsWritten(a + b).Ok?
  {
    IsbnCoreSkipsSeparator(a, b, sep);
  }

  /** "123456789X" is a valid ISBN-10 and "12345" is too short, as written
      and as intended. */
  lemma IsbnShortAndXExamples(x: string, short: string)
    requires x == "123456789X" && short == "12345"
    ensures CleanIsbn(x) == Ok(x) && CleanIsbnAsWritten(x) == Ok(x)
    ensures CleanIsbn(short) == Err(IsbnLength) && CleanIsbnAsWritten(short) == Err(IsbnLength)
  {
    IsbnCoreOfPlain(x);
    IsbnCoreOfPlain(short);
    assert forall i :: 0 <= i < 9 ==> IsDigit(x[i]);
    assert x[9] == 'X';
  }

  /** Ten digits split into four groups by hyphens, the usual way of
      printing an ISBN-10, pass the check, as written and as intended. */
  lemma HyphenatedIsbn10(a: string, b: string, c: string, e: string)
    requires IsDigits(a) && IsDigits(b) && IsDigits(c) && IsDigits(e)
    requires |a| + |b| + |c| + |e| == 10
    ensures var h := a + "-" + b + "-" + c + "-" + e;
      CleanIsbn(h) == Ok(h) && CleanIsbnAsWritten(h) == Ok(h)
  {
    var h := a + "-" + b + "-" + c + "-" + e;
    assert h == a + ['-'] + (b + "-" + c + "-" + e);
    IsbnCoreSkipsSeparator(a, b + "-" + c + "-" + e, '-');
    assert a + (b + "-" + c + "-" + e) == (a + b) + ['-'] + (c + "-" + e);
    IsbnCoreSkipsSeparator(a + b, c + "-" + e, '-');
    assert (a + b) + (c + "-" + e) == (a + b + c) + ['-'] + e;
    IsbnCoreSkipsSeparator(a + b + c, e, '-');
    var plain := a + b + c + e;
    assert forall i :: 0 <= i < |plain| ==> IsDigit(plain[i]) by {
      forall i | 0 <= i < |plain| ensures IsDigit(plain[i]) {
        if i < |a| {
          assert plain[i] == a[i];
        } else if i < |a| + |b| {
          assert plain[i] == b[i - |a|];
        } else if i < |a| + |b| + |c| {
          assert plain[i] == c[i - |a| - |b|];
        } else {
          assert plain[i] == e[i - |a| - |b| - |c|];
        }
      }
    }
    IsbnCoreOfPlain(plain);
  }

  /** The hyphenated "0-306-40615-2" is a valid ISBN-10, as written and as
      intended. */
  lemma HyphenatedIsbnExample(hyphenated: string)
    requires hyphenated == "0-306-40615-2"
    ensures CleanIsbn(hyphenated) == Ok(hyphenated) && CleanIsbnAsWritten(hyphenated) == Ok(hyphenated)
  {
    assert hyphenated == "0" + "-" + "306" + "-" + "40615" + "-" + "2";
    HyphenatedIsbn10("0", "306", "40615", "2");
  }

  /** The points where the form as written and its evidently intended
      behaviour part ways (README, "Findings"). */
  datatype Behaviour = Behaviour(
    authorRequired: bool,     // the `author` choice field is required
    availableRequired: bool,  // the `available_copies` field is required
    strictIsbn: bool,         // the ISBN check looks at the check character
    keepNewCategories: bool)  // saving keeps the categories created from text

  const AS_WRITTEN := Behaviour(true, true, false, false)
  const INTENDED := Behaviour(false, false, true, true)

  function IsbnCheck(b: Behaviour, isbn: string): Result<string, FormError> {
    if b.strictIsbn then CleanIsbn(isbn) else CleanIsbnAsWritten(isbn)
  }

  /** The per-field errors the form can report. */
  const FIELD_ERRORS: set<FormError> := {
    Required(Title), Required(AuthorChoice), InvalidChoice(AuthorChoice), Required(Isbn), IsbnLength,
    InvalidChoice(CategoryChoice), Required(Publisher), Required(PublishedDate), Required(TotalCopies),
    Required(AvailableCopies)}

  /** The rule behind each per-field error: a required value left empty, a
      choice that names no stored record, or `clean_isbn` failing on a
      non-empty ISBN (it does not run when the required check already
      failed). */
  predicate FieldFails(b: Behaviour, authorIds: set<nat>, categoryIds: set<nat>, d: Submission, e: FormError) {
    match e
    case Required(Title) => d.title == ""
    case Required(AuthorChoice) => d.author.None? && b.authorRequired
    case InvalidChoice(AuthorChoice) => d.author.Some? && d.author.value !in authorIds
    case Required(Isbn) => d.isbn == ""
    case IsbnLength => d.isbn != "" && IsbnCheck(b, d.isbn).Err?
    case InvalidChoice(CategoryChoice) => !(d.categoryIds <= categoryIds)
    case Required(Publisher) => d.publisher == ""
    case Required(PublishedDate) => d.publishedDate.None?
    case Required(TotalCopies) => d.totalCopies.None?
    case Required(AvailableCopies) => d.availableCopies.None? && b.availableRequired
    case _ => false
  }

  /** The errors of the per-field cleaning that precedes `clean`. The form
      keeps its errors per field, so they are a set here. */
  function FieldErrors(b: Behaviour, authorIds: set<nat>, categoryIds: set<nat>, d: Submission): (r: set<FormError>)
    ensures forall e :: e in r <==> FieldFails(b, authorIds, categoryIds, d, e)
    ensures Required(Title) in r <==> d.title == ""
    ensures Required(AuthorChoice) in r <==> d.author.None? && b.authorRequired
    ensures InvalidChoice(AuthorChoice) in r <==> d.author.Some? && d.author.value !in authorIds
    ensures Required(Isbn) in r <==> d.isbn == ""
    ensures IsbnLength in r <==> d.isbn != "" && IsbnCheck(b, d.isbn).Err?
    ensures InvalidChoice(CategoryChoice) in r <==> !(d.categoryIds <= categoryIds)
    ensures Required(Publisher) in r <==> d.publisher == ""
    ensures Required(PublishedDate) in r <==> d.publishedDate.None?
    ensures Required(TotalCopies) in r <==> d.totalCopies.None?
    ensures Required(AvailableCopies) in r <==> d.availableCopies.None? && b.availableRequired
    ensures forall e :: e in r ==> e.Required? || e.InvalidChoice? || e == IsbnLength
  {
    set e | e in FIELD_ERRORS && FieldFails(b, authorIds, categoryIds, d, e)
  }

  /** What `clean` sees: a field whose own cleaning failed is missing. */
  function FieldCleaned(d: Submission, authorIds: set<nat>): Submission {
    if d.author.Some? && d.author.value !in authorIds then d.(author := None) else d
  }

  /** `is_valid()`: every field error and the `clean` error are collected;
      the form is valid when there are none, and then yields the cleaned data. */
  function Validate(b: Behaviour, authorIds: set<nat>, categoryIds: set<nat>, d: Submission)
    : (r: Result<Submission, set<FormError>>)
    ensures r.Ok? <==> FieldErrors(b, authorIds, categoryIds, d) == {} && Clean(FieldCleaned(d, authorIds)).Ok?
    ensures r.Err? ==> |r.error| > 0
    ensures r.Err? ==> forall e :: e in r.error <==>
      e in FieldErrors(b, authorIds, categoryIds, d) || Clean(FieldCleaned(d, authorIds)) == Err(e)
    ensures r.Ok? ==> r.value == d.(availableCopies := r.value.availableCopies)
    ensures r.Ok? ==> d.title != "" && d.isbn != "" && d.publisher != "" && d.publishedDate.Some?
    ensures r.Ok? ==> OneAuthorSource(r.value)
    ensures r.Ok? && r.value.author.Some? ==> r.value.author.value in authorIds
    ensures r.Ok? ==> IsbnCheck(b, d.isbn).Ok? && r.value.isbn == d.isbn
    ensures r.Ok? ==> d.categoryIds <= categoryIds && r.value.categoryIds == d.categoryIds
    ensures r.Ok? ==> r.value.totalCopies.Some? && r.value.totalCopies == d.totalCopies
    ensures r.Ok? && r.value.totalCopies.value != 0 ==>
      r.value.availableCopies.Some? && r.value.availableCopies.value <= r.value.totalCopies.value
    ensures r.Ok? && d.availableCopies.Some? ==> r.value.availableCopies == d.availableCopies
    ensures r.Ok? && d.availableCopies.None? ==>
      r.value.availableCopies == (if d.totalCopies.value != 0 then d.totalCopies else None)
  {
    var fieldErrors := FieldErrors(b, authorIds, categoryIds, d);
    match Clean(FieldCleaned(d, authorIds))
    case Ok(cleaned) => if fieldErrors == {} then Ok(cleaned) else Err(fieldErrors)
    case Err(e) => Err(fieldErrors + {e})
  }

  /** A form with an empty title, ISBN or publisher, or without a
      publication date, is shown again with that field marked required; an
      empty ISBN is reported as required, never as of the wrong length. */
  lemma EmptyRequiredFieldRejected(b: Behaviour, authorIds: set<nat>, categoryIds: set<nat>, d: Submission)
    requires d.title == "" || d.isbn == "" || d.publisher == "" || d.publishedDate.None?
    ensures var v := Validate(b, authorIds, categoryIds, d);
      && v.Err?
      && (d.title == "" ==> Required(Title) in v.error)
      && (d.isbn == "" ==> Required(Isbn) in v.error && IsbnLength !in v.error)
      && (d.publisher == "" ==> Required(Publisher) in v.error)
      && (d.publishedDate.None? ==> Required(PublishedDate) in v.error)
  {
  }

  /** As written, a form that names only a new author never validates: the
      `author` choice field is required. */
  lemma AsWrittenRejectsNewAuthorOnly(authorIds: set<nat>, categoryIds: set<nat>, d: Submission)
    requires d.author.None?
    ensures Validate(AS_WRITTEN, authorIds, categoryIds, d).Err?
  {
  }

  /** As written, a form that leaves available_copies empty never validates,
      so `clean`'s defaulting never reaches a saved book. */
  lemma AsWrittenRejectsMissingAvailable(authorIds: set<nat>, categoryIds: set<nat>, d: Submission)
    requires d.availableCopies.None?
    ensures Validate(AS_WRITTEN, authorIds, categoryIds, d).Err?
  {
  }

  /** With both fields optional, naming only a new author and leaving the
      available count empty validates, and the count defaults to the total. */
  lemma IntendedAcceptsNewAuthorWithDefaultCopies(authorIds: set<nat>, categoryIds: set<nat>, d: Submission)
    requires d.author.None? && d.newAuthorName != ""
    requires d.title != "" && d.isbn != "" && d.publisher != "" && d.publishedDate.Some?
    requires CleanIsbn(d.isbn).Ok? && d.categoryIds <= categoryIds
    requires d.totalCopies.Some? && d.totalCopies.value != 0 && d.availableCopies.None?
    ensures Validate(INTENDED, authorIds, categoryIds, d) == Ok(d.(availableCopies := d.totalCopies))
  {
  }

  /** Each piece stripped of surrounding whitespace, in order, dropping the
      pieces that strip to nothing (the list comprehension of `save`). */
  function StrippedNonEmpty(pieces: seq<string>): (r: seq<string>)
    ensures |r| <= |pieces|
    ensures forall n :: n in r <==> n != "" && exists p :: p in pieces && Strip(p) == n
    ensures forall n :: n in r ==> n != "" && !IsSpace(n[0]) && !IsSpace(n[|n| - 1])
  {
    if pieces == [] then []
    else
      assert pieces == [pieces[0]] + pieces[1..];
      var n := Strip(pieces[0]);
      var rest := StrippedNonEmpty(pieces[1..]);
      (if n == "" then [] else [n]) + rest
  }

  /** Stripping only removes characters, so a character absent from every
      piece is absent from every name. */
  lemma StrippedLacks(pieces: seq<string>, c: char)
    requires forall k :: 0 <= k < |pieces| ==> c !in pieces[k]
    ensures forall n :: n in StrippedNonEmpty(pieces) ==> c !in n
  {
    forall n | n in StrippedNonEmpty(pieces) ensures c !in n {
      var p :| p in pieces && Strip(p) == n;
      var i :| TrimmedAt(p, n, i);
      assert n == p[i..i + |n|];
    }
  }

  /** The category names typed into `new_categories`: the comma-separated
      pieces, stripped, with empty ones dropped. */
  function CategoryNames(text: string): (names: seq<string>)
    ensures forall n :: n in names <==> n != "" && exists p :: p in Split(text, ',') && Strip(p) == n
    ensures forall n :: n in names ==> n != "" && ',' !in n
    ensures forall n :: n in names ==> !IsSpace(n[0]) && !IsSpace(n[|n| - 1])
    ensures |names| <= |Split(text, ',')|
  {
    StrippedLacks(Split(text, ','), ',');
    StrippedNonEmpty(Split(text, ','))
  }
}

=== FILE: book_store.dfy ===
/** The record-creation steps of `BookForm.save` (library/forms.py) against
    an in-memory store of authors, categories and books: get-or-create of
    the author, the slug de-duplication loop, get-or-create of every new
    category, and the final many-to-many save; then `book_add` as
    "validate, then save". */
module BookStore {
  import opened Records
  import opened Text
  import opened Query
  import opened BookForm

  function AuthorName(a: Author): string { a.name }

  function CategoryName(c: Category): string { c.name }

  /** The records of `table` carrying exactly `name`. */
  function Named<T(!new)>(table: seq<T>, nameOf: T -> string, name: string): (r: seq<T>)
    ensures forall x :: x in r <==> x in table && nameOf(x) == name
  {
    Filter(table, (x: T) => nameOf(x) == name)
  }

  /** No two records of `table` share a name. */
  ghost predicate UniqueNames<T(!new)>(table: seq<T>, nameOf: T -> string) {
    forall i, j :: 0 <= i < j < |table| ==> nameOf(table[i]) != nameOf(table[j])
  }

  /** The table after a `get_or_create(name=...)` and what the call returned. */
  datatype Resolved<T> = Resolved(table: seq<T>, outcome: Result<T, DbError>)

  /** `get_or_create(name=...)`: the single record with that name is
      returned untouched; with none, `made` is added and returned; with
      several, `get` raises MultipleObjectsReturned and nothing is added. */
  function GetOrCreate<T(!new)>(table: seq<T>, nameOf: T -> string, name: string, made: T): (r: Resolved<T>)
    requires nameOf(made) == name
    ensures r.table == table || r.table == table + [made]
    ensures r.table == table + [made] <==> name !in NamesIn(table, nameOf)
    ensures r.table == table + [made] ==> r.outcome == Ok(made)
    ensures r.outcome.Ok? ==> nameOf(r.outcome.value) == name && r.outcome.value in r.table
    ensures r.outcome.Err? <==> |Named(table, nameOf, name)| > 1
    ensures r.outcome.Err? ==> r.outcome.error == MultipleObjectsReturned
  {
    var found := Named(table, nameOf, name);
    if |found| == 0 then
      assert name !in NamesIn(table, nameOf);
      Resolved(table + [made], Ok(made))
    else
      assert found[0] in table;
      if |found| == 1 then Resolved(table, Ok(found[0]))
      else Resolved(table, Err(MultipleObjectsReturned))
  }

  /** The names present in a table. */
  ghost function NamesIn<T(!new)>(table: seq<T>, nameOf: T -> string): set<string> {
    set x | x in table :: nameOf(x)
  }

  /** An exact-name match is reused as it is (an existing author's biography
      is not overwritten), and the table does not change. */
  lemma GetOrCreateReuses<T(!new)>(table: seq<T>, nameOf: T -> string, name: string, made: T, existing: T)
    requires nameOf(made) == name
    requires Named(table, nameOf, name) == [existing]
    ensures GetOrCreate(table, nameOf, name, made) == Resolved(table, Ok(existing))
  {
  }

  /** A second `get_or_create` with the same name adds nothing and returns
      the record the first one returned. */
  lemma GetOrCreateIdempotent<T(!new)>(table: seq<T>, nameOf: T -> string, name: string, made: T, made2: T)
    requires nameOf(made) == name && nameOf(made2) == name
    requires GetOrCreate(table, nameOf, name, made).outcome.Ok?
    ensures var first := GetOrCreate(table, nameOf, name, made);
      GetOrCreate(first.table, nameOf, name, made2) == Resolved(first.table, first.outcome)
  {
    var found := Named(table, nameOf, name);
    if |found| == 0 {
      FilterConcat(table, [made], (x: T) => nameOf(x) == name);
      assert Named(table + [made], nameOf, name) == [made];
    }
  }

  lemma {:induction false} AtMostOneNamed<T(!new)>(table: seq<T>, nameOf: T -> string, name: string)
    requires UniqueNames(table, nameOf)
    ensures |Named(table, nameOf, name)| <= 1
  {
    if table != [] {
      var rest := table[1..];
      assert UniqueNames(rest, nameOf) by {
        forall i, j | 0 <= i < j < |rest| ensures nameOf(rest[i]) != nameOf(rest[j]) {
          assert rest[i] == table[i + 1] && rest[j] == table[j + 1];
        }
      }
      AtMostOneNamed(rest, nameOf, name);
      if nameOf(table[0]) == name {
        forall x | x in rest ensures nameOf(x) != name {
          var k :| 0 <= k < |rest| && rest[k] == x;
          assert table[k + 1] == x;
        }
        FilterNone(rest, (x: T) => nameOf(x) == name);
      }
    }
  }

  /** On a table without duplicate names `get_or_create` never fails, and the
      table stays free of duplicates. */
  lemma GetOrCreateKeepsNamesUnique<T(!new)>(table: seq<T>, nameOf: T -> string, name: string, made: T)
    requires nameOf(made) == name && UniqueNames(table, nameOf)
    ensures var r := GetOrCreate(table, nameOf, name, made);
      r.outcome.Ok? && UniqueNames(r.table, nameOf)
  {
    AtMostOneNamed(table, nameOf, name);
    var r := GetOrCreate(table, nameOf, name, made);
    if r.table != table {
      forall i, j | 0 <= i < j < |r.table| ensures nameOf(r.table[i]) != nameOf(r.table[j]) {
        if j == |table| {
          assert table[i] in table;
        }
      }
    }
  }

  /** The first, second, ... candidate slug: base, base-1, base-2, ... */
  function SlugCandidate(base: string, k: nat): (r: string)
    ensures |base| <= |r| && r[..|base|] == base
    ensures r == base <==> k == 0
  {
    if k == 0 then base else base + "-" + NatToString(k)
  }

  /** Distinct counters give distinct candidates. */
  lemma SlugCandidateInjective(base: string, j: nat, k: nat)
    requires SlugCandidate(base, j) == SlugCandidate(base, k)
    ensures j == k
  {
    assert j == 0 <==> k == 0 by {
      assert |SlugCandidate(base, j)| == |SlugCandidate(base, k)|;
    }
    if j != 0 {
      var n := |base| + 1;
      assert NatToString(j) == SlugCandidate(base, j)[n..];
      assert NatToString(k) == SlugCandidate(base, k)[n..];
      NatToStringInjective(j, k);
    }
  }

  /** `slug` is the first of base, base-1, base-2, ... that is not taken. */
  ghost predicate FirstFreeSlug(slug: string, base: string, taken: set<string>) {
    exists k: nat :: slug == SlugCandidate(base, k) && slug !in taken
      && forall j: nat :: j < k ==> SlugCandidate(base, j) in taken
  }

  /** The first free candidate is free. */
  lemma FirstFreeSlugNotTaken(slug: string, base: string, taken: set<string>)
    requires FirstFreeSlug(slug, base, taken)
    ensures slug !in taken
  {
  }

  /** There is only one first free candidate. */
  lemma FirstFreeSlugUnique(s1: string, s2: string, base: string, taken: set<string>)
    requires FirstFreeSlug(s1, base, taken) && FirstFreeSlug(s2, base, taken)
    ensures s1 == s2
  {
    var k1: nat :| s1 == SlugCandidate(base, k1) && s1 !in taken
      && forall j: nat :: j < k1 ==> SlugCandidate(base, j) in taken;
    var k2: nat :| s2 == SlugCandidate(base, k2) && s2 !in taken
      && forall j: nat :: j < k2 ==> SlugCandidate(base, j) in taken;
    assert !(k1 < k2);
    assert !(k2 < k1);
  }

  /** An untaken base is used as it is; a taken base whose "-1" form is free
      gets that form (two books titled alike get "dune" and "dune-1"). */
  lemma FirstFreeSlugCases(slug: string, base: string, taken: set<string>)
    requires FirstFreeSlug(slug, base, taken)
    ensures base !in taken ==> slug == base
    ensures base in taken && base + "-1" !in taken ==> slug == base + "-1"
  {
    var k: nat :| slug == SlugCandidate(base, k) && slug !in taken
      && forall j: nat :: j < k ==> SlugCandidate(base, j) in taken;
    assert SlugCandidate(base, 0) == base;
    assert NatToString(1) == "1";
    assert SlugCandidate(base, 1) == base + "-1";
    assert base !in taken ==> k == 0;
    assert base in taken ==> k != 0;
    assert base + "-1" !in taken ==> k <= 1;
  }

  /** The category step of `save` for each parsed name, in order: the table
      after it, the ids attached so far, and the error that stopped it. */
  datatype Resolution = Resolution(table: seq<Category>, ids: set<nat>, failure: Option<DbError>)

  function ResolveCategory(table: seq<Category>, name: string): Resolved<Category> {
    GetOrCreate(table, CategoryName, name, Category(|table| + 1, name))
  }

  /** `for name in names: get_or_create(name=name); book.category.add(...)`,
      stopping at the first error. */
  function ResolveAll(table: seq<Category>, names: seq<string>): (r: Resolution)
    ensures |table| <= |r.table| <= |table| + |names| && r.table[..|table|] == table
    ensures forall i :: |table| <= i < |r.table| ==> r.table[i].name in names
    decreases |names|
  {
    if names == [] then Resolution(table, {}, None)
    else
      var prev := ResolveAll(table, names[..|names| - 1]);
      if prev.failure.Some? then prev
      else
        var res := ResolveCategory(prev.table, names[|names| - 1]);
        match res.outcome
        case Ok(c) => Resolution(res.table, prev.ids + {c.id}, None)
        case Err(e) => Resolution(res.table, prev.ids, Some(e))
  }

  /** One more name: resolve it against the table left by the earlier ones. */
  lemma ResolveAllStep(table: seq<Category>, names: seq<string>, i: nat)
    requires i < |names| && ResolveAll(table, names[..i]).failure.None?
    ensures var prev := ResolveAll(table, names[..i]);
      var res := ResolveCategory(prev.table, names[i]);
      ResolveAll(table, names[..i + 1]) ==
        if res.outcome.Ok? then Resolution(res.table, prev.ids + {res.outcome.value.id}, None)
        else Resolution(res.table, prev.ids, Some(res.outcome.error))
  {
    assert names[..i + 1][..i] == names[..i];
  }

  /** Once a step fails, later names change nothing. */
  lemma {:induction false} ResolveAllStops(table: seq<Category>, names: seq<string>, k: nat)
    requires k <= |names| && ResolveAll(table, names[..k]).failure.Some?
    ensures ResolveAll(table, names) == ResolveAll(table, names[..k])
    decreases |names| - k
  {
    if k < |names| {
      assert names[..k + 1][..k] == names[..k];
      ResolveAllStops(table, names, k + 1);
    } else {
      assert names[..k] == names;
    }
  }

  /** The ids of the categories of `table` named in `names`. */
  ghost function IdsNamed(table: seq<Category>, names: seq<string>): set<nat> {
    set c | c in table && c.name in names :: c.id
  }

  /** The only error resolving can stop at is a name matching several
      categories. */
  lemma {:induction false} ResolveAllFailure(table: seq<Category>, names: seq<string>)
    ensures ResolveAll(table, names).failure.Some? ==>
      ResolveAll(table, names).failure.value == MultipleObjectsReturned
    decreases |names|
  {
    if names != [] {
      ResolveAllFailure(table, names[..|names| - 1]);
    }
  }

  /** On a table without duplicate names, resolving never fails and keeps
      the names unique. */
  lemma {:induction false} ResolveAllSucceeds(table: seq<Category>, names: seq<string>)
    requires UniqueNames(table, CategoryName)
    ensures var r := ResolveAll(table, names);
      r.failure.None? && UniqueNames(r.table, CategoryName)
    decreases |names|
  {
    if names != [] {
      var init := names[..|names| - 1];
      var n := names[|names| - 1];
      ResolveAllSucceeds(table, init);
      var prev := ResolveAll(table, init);
      GetOrCreateKeepsNamesUnique(prev.table, CategoryName, n, Category(|prev.table| + 1, n));
    }
  }

  /** Every resolved name has a category with that name afterwards. */
  lemma {:induction false} ResolveAllCovers(table: seq<Category>, names: seq<string>)
    requires UniqueNames(table, CategoryName)
    ensures forall n :: n in names ==> n in NamesIn(ResolveAll(table, names).table, CategoryName)
    decreases |names|
  {
    if names != [] {
      var init := names[..|names| - 1];
      var n := names[|names| - 1];
      assert names == init + [n];
      ResolveAllSucceeds(table, init);
      ResolveAllCovers(table, init);
      var prev := ResolveAll(table, init);
      var res := ResolveCategory(prev.table, n);
      GetOrCreateKeepsNamesUnique(prev.table, CategoryName, n, Category(|prev.table| + 1, n));
      var r := ResolveAll(table, names);
      assert r.table == res.table;
      assert prev.table <= r.table;
      forall m | m in names ensures m in NamesIn(r.table, CategoryName) {
        if m == n {
          assert res.outcome.value in r.table;
        } else {
          assert m in init;
          var c :| c in prev.table && c.name == m;
          assert c in r.table;
        }
      }
    }
  }

  /** When every name is already present, the table is left as it is. */
  lemma {:induction false} ResolveAllKeepsTable(table: seq<Category>, names: seq<string>)
    requires UniqueNames(table, CategoryName)
    requires forall n :: n in names ==> n in NamesIn(table, CategoryName)
    ensures ResolveAll(table, names).table == table
    decreases |names|
  {
    if names != [] {
      var init := names[..|names| - 1];
      var n := names[|names| - 1];
      assert n in names;
      ResolveAllSucceeds(table, init);
      ResolveAllKeepsTable(table, init);
    }
  }

  /** In a table without duplicate names, the only record named like `c` is `c`. */
  lemma OnlyOneNamed(table: seq<Category>, c: Category, d: Category)
    requires UniqueNames(table, CategoryName)
    requires c in table && d in table && c.name == d.name
    ensures c == d
  {
    var i :| 0 <= i < |table| && table[i] == c;
    var j :| 0 <= j < |table| && table[j] == d;
    assert !(i < j) && !(j < i) by {
      assert CategoryName(table[i]) == CategoryName(table[j]);
    }
  }

  /** One resolution step adds exactly the id of the category it picked. */
  lemma IdsNamedStep(before: seq<Category>, after: seq<Category>, init: seq<string>, n: string, picked: Category)
    requires UniqueNames(after, CategoryName) && picked in after && picked.name == n
    requires after == before || (after == before + [picked] && n !in init)
    ensures IdsNamed(after, init + [n]) == IdsNamed(before, init) + {picked.id}
  {
    forall id ensures id in IdsNamed(after, init + [n]) <==> id in IdsNamed(before, init) + {picked.id} {
      if id in IdsNamed(after, init + [n]) {
        var c :| c in after && c.name in init + [n] && c.id == id;
        if c.name == n {
          OnlyOneNamed(after, c, picked);
        } else {
          assert c in before;
        }
      }
      if id in IdsNamed(before, init) {
        var c :| c in before && c.name in init && c.id == id;
        assert c in after;
      }
    }
  }

  /** The ids attached are exactly those of the categories named. */
  lemma {:induction false} ResolveAllIds(table: seq<Category>, names: seq<string>)
    requires UniqueNames(table, CategoryName)
    ensures var r := ResolveAll(table, names);
      r.ids == IdsNamed(r.table, names)
    decreases |names|
  {
    if names != [] {
      var init := names[..|names| - 1];
      var n := names[|names| - 1];
      assert names == init + [n];
      ResolveAllSucceeds(table, init);
      ResolveAllCovers(table, init);
      ResolveAllIds(table, init);
      var prev := ResolveAll(table, init);
      var made := Category(|prev.table| + 1, n);
      var res := ResolveCategory(prev.table, n);
      GetOrCreateKeepsNamesUnique(prev.table, CategoryName, n, made);
      var picked := res.outcome.value;
      assert res.table != prev.table ==> n !in init;
      IdsNamedStep(prev.table, res.table, init, n, picked);
    }
  }

  /** Resolving the same names a second time changes nothing and attaches
      the same categories. */
  lemma ResolveAllIdempotent(table: seq<Category>, names: seq<string>)
    requires UniqueNames(table, CategoryName)
    ensures var first := ResolveAll(table, names);
      ResolveAll(first.table, names) == first
  {
    ResolveAllSucceeds(table, names);
    ResolveAllCovers(table, names);
    ResolveAllIds(table, names);
    var first := ResolveAll(table, names);
    ResolveAllSucceeds(first.table, names);
    ResolveAllKeepsTable(first.table, names);
    ResolveAllIds(first.table, names);
  }

  /** The categories parsed out of `new_categories`, which is only looked at
      when non-empty. */
  function NewCategoryNames(text: string): seq<string> {
    if text == "" then [] else CategoryNames(text)
  }

  /** The final category set: `save_m2m` replaces the relation with the
      selected categories; the intended behaviour keeps the new ones too. */
  function SavedCategories(b: Behaviour, added: set<nat>, selected: set<nat>): (r: set<nat>)
    ensures selected <= r <= added + selected
    ensures b.keepNewCategories ==> added <= r
    ensures !b.keepNewCategories ==> r * (added - selected) == {}
  {
    if b.keepNewCategories then added + selected else selected
  }

  function AuthorId(a: Author): nat { a.id }

  function CategoryId(c: Category): nat { c.id }

  function BookId(b: Book): nat { b.id }

  /** Every record's id is its position in the table plus one (the database
      hands out ids 1, 2, 3, ... in insertion order; nothing is deleted). */
  ghost predicate Positional<T(!new)>(table: seq<T>, idOf: T -> nat) {
    forall i :: 0 <= i < |table| ==> idOf(table[i]) == i + 1
  }

  /** A record created with the next id keeps the ids positional. */
  lemma GetOrCreatePositional<T(!new)>(table: seq<T>, nameOf: T -> string, idOf: T -> nat, name: string, made: T)
    requires nameOf(made) == name && idOf(made) == |table| + 1 && Positional(table, idOf)
    ensures Positional(GetOrCreate(table, nameOf, name, made).table, idOf)
  {
  }

  /** Resolving appends categories with the next ids, so ids stay positions. */
  lemma {:induction false} ResolveAllKeepsIds(table: seq<Category>, names: seq<string>)
    requires Positional(table, CategoryId)
    ensures Positional(ResolveAll(table, names).table, CategoryId)
    decreases |names|
  {
    if names != [] {
      var init := names[..|names| - 1];
      var n := names[|names| - 1];
      ResolveAllKeepsIds(table, init);
      var prev := ResolveAll(table, init);
      GetOrCreatePositional(prev.table, CategoryName, CategoryId, n, Category(|prev.table| + 1, n));
    }
  }

  /** As written, a category created for a typed-in name is dropped again
      unless it was also selected. */
  lemma AsWrittenDropsNewCategories(table: seq<Category>, names: seq<string>, selected: set<nat>, name: string)
    requires UniqueNames(table, CategoryName) && Positional(table, CategoryId)
    requires name in names && name !in NamesIn(table, CategoryName)
    requires forall id :: id in selected ==> id <= |table|
    ensures var r := ResolveAll(table, names);
      exists c :: c in r.table && c.name == name && c.id in r.ids
        && c.id !in SavedCategories(AS_WRITTEN, r.ids, selected)
  {
    ResolveAllSucceeds(table, names);
    ResolveAllCovers(table, names);
    ResolveAllIds(table, names);
    ResolveAllFailure(table, names);
    ResolveAllKeepsIds(table, names);
    var r := ResolveAll(table, names);
    var c :| c in r.table && c.name == name;
    assert c.id in r.ids;
    assert c in table ==> c.name in NamesIn(table, CategoryName);
    assert c !in table;
    var i :| 0 <= i < |r.table| && r.table[i] == c;
    assert i >= |table|;
    assert c.id > |table|;
  }

  /** Intended: every name typed into `new_categories` ends up attached to
      the saved book, next to every selected category. */
  lemma IntendedAttachesEveryName(table: seq<Category>, text: string, selected: set<nat>)
    requires UniqueNames(table, CategoryName)
    ensures var r := ResolveAll(table, NewCategoryNames(text));
      && selected <= SavedCategories(INTENDED, r.ids, selected)
      && forall n :: n in NewCategoryNames(text) ==>
           exists c :: c in r.table && c.name == n && c.id in SavedCategories(INTENDED, r.ids, selected)
  {
    var names := NewCategoryNames(text);
    ResolveAllSucceeds(table, names);
    ResolveAllCovers(table, names);
    ResolveAllIds(table, names);
    var r := ResolveAll(table, names);
    forall n | n in names
      ensures exists c :: c in r.table && c.name == n && c.id in SavedCategories(INTENDED, r.ids, selected)
    {
      var c :| c in r.table && c.name == n;
      assert c.id in r.ids;
    }
  }

  /** The author lookup of `save` raises: the typed-in name matches several
      stored authors. */
  ghost predicate AuthorLookupFails(authors: seq<Author>, d: Submission) {
    d.newAuthorName != "" && |Named(authors, AuthorName, d.newAuthorName)| > 1
  }

  /** The insert of `save` leaves a NOT NULL column empty: no author, no
      publication date, or a copy count missing. */
  predicate MissingColumn(d: Submission) {
    || (d.newAuthorName == "" && d.author.None?)
    || d.publishedDate.None? || d.totalCopies.None? || d.availableCopies.None?
  }

  /** Of the NOT NULL columns, only the available count can still be empty
      after validation, and only when the total is zero: `clean` copies a
      truthy total into a missing available count and nothing else. */
  lemma ValidatedMissingColumn(b: Behaviour, authorIds: set<nat>, categoryIds: set<nat>, raw: Submission)
    requires Validate(b, authorIds, categoryIds, raw).Ok?
    ensures var d := Validate(b, authorIds, categoryIds, raw).value;
      MissingColumn(d) <==> d.availableCopies.None?
    ensures var d := Validate(b, authorIds, categoryIds, raw).value;
      MissingColumn(d) ==> d.totalCopies == Some(0) && raw.availableCopies.None?
  {
  }

  /** The ids used in a table. */
  function IdSet<T(==)>(table: seq<T>, idOf: T -> nat): set<nat> {
    set x | x in table :: idOf(x)
  }

  /** Every book refers to a stored author and to stored categories only. */
  ghost predicate Linked(authors: seq<Author>, categories: seq<Category>, books: seq<Book>) {
    forall b :: b in books ==>
      b.authorId in IdSet(authors, AuthorId) && b.categoryIds <= IdSet(categories, CategoryId)
  }

  /** The store's invariant: positional ids and no dangling reference. */
  ghost predicate Consistent(authors: seq<Author>, categories: seq<Category>, books: seq<Book>) {
    && Positional(authors, AuthorId)
    && Positional(categories, CategoryId)
    && Positional(books, BookId)
    && Linked(authors, categories, books)
  }

  /** Appending to a table never loses an id. */
  lemma IdSetGrows<T>(table: seq<T>, table': seq<T>, idOf: T -> nat)
    requires table <= table'
    ensures IdSet(table, idOf) <= IdSet(table', idOf)
  {
    forall x | x in table ensures x in table' {
      var i :| 0 <= i < |table| && table[i] == x;
      assert table'[i] == x;
    }
  }

  /** Appending to the author and category tables keeps every reference valid. */
  lemma ConsistentGrow(authors: seq<Author>, categories: seq<Category>, books: seq<Book>,
                       authors': seq<Author>, categories': seq<Category>)
    requires Consistent(authors, categories, books)
    requires authors <= authors' && categories <= categories'
    requires Positional(authors', AuthorId) && Positional(categories', CategoryId)
    ensures Consistent(authors', categories', books)
  {
    IdSetGrows(authors, authors', AuthorId);
    IdSetGrows(categories, categories', CategoryId);
  }

  /** Inserting a book with the next id and valid references keeps the invariant. */
  lemma ConsistentAppend(authors: seq<Author>, categories: seq<Category>, books: seq<Book>, book: Book)
    requires Consistent(authors, categories, books)
    requires book.id == |books| + 1
    requires book.authorId in IdSet(authors, AuthorId) && book.categoryIds <= IdSet(categories, CategoryId)
    ensures Consistent(authors, categories, books + [book])
  {
  }

  /** Dropping the last book keeps the invariant. */
  lemma ConsistentPrefix(authors: seq<Author>, categories: seq<Category>, books: seq<Book>, book: Book)
    requires Consistent(authors, categories, books + [book])
    ensures Consistent(authors, categories, books)
    ensures book.id == |books| + 1
    ensures book.authorId in IdSet(authors, AuthorId) && book.categoryIds <= IdSet(categories, CategoryId)
  {
    assert (books + [book])[|books|] == book;
    forall i | 0 <= i < |books| ensures books[i].id == i + 1 {
      assert (books + [book])[i] == books[i];
    }
  }

  /** What adding a book through the form came to. */
  datatype AddOutcome =
    | Added(book: Book)              // saved; the view redirects to the book's page
    | Rejected(errors: set<FormError>)  // the form is shown again with its errors
    | Failed(error: DbError)         // `save` raised

  /** What `save` stores for cleaned data `d`, apart from the categories:
      the submitted values, the selected author or the typed-in one, and the
      instance's slug or else the first free candidate for the title. */
  ghost predicate FromForm(book: Book, d: Submission, authors: seq<Author>, currentSlug: string,
                           slugify: string -> string, taken: set<string>) {
    && book.title == d.title && book.isbn == d.isbn && book.publisher == d.publisher
    && Some(book.publishedDate) == d.publishedDate
    && Some(book.totalCopies) == d.totalCopies && Some(book.availableCopies) == d.availableCopies
    && (d.newAuthorName == "" ==> Some(book.authorId) == d.author)
    && (d.newAuthorName != "" ==> exists a :: a in authors && a.id == book.authorId && a.name == d.newAuthorName)
    && (currentSlug != "" ==> book.slug == currentSlug)
    && (currentSlug == "" ==> FirstFreeSlug(book.slug, slugify(d.title), taken))
  }

  /** The authors table after `save` of `d`: the result of the author
      `get_or_create` for a typed-in name, the table as it was otherwise. */
  function AuthorsAfterSave(authors: seq<Author>, d: Submission): seq<Author> {
    if d.newAuthorName == "" then authors
    else GetOrCreate(authors, AuthorName, d.newAuthorName, Author(|authors| + 1, d.newAuthorName, d.newAuthorBiography)).table
  }

  /** What a `save` of `d` that raised `e` leaves behind, from the tables
      `authors0`, `categories0` and `books0`: an ambiguous author name or an
      empty NOT NULL column stops it before anything is written to the books
      or categories; an ambiguous category name stops it after the insert,
      leaving the new book with the categories added so far. */
  ghost predicate SaveErrorLeaves(authors0: seq<Author>, categories0: seq<Category>, books0: seq<Book>,
                                  authors: seq<Author>, categories: seq<Category>, books: seq<Book>,
                                  d: Submission, currentSlug: string, slugify: string -> string, e: DbError) {
    if AuthorLookupFails(authors0, d) then
      e == MultipleObjectsReturned && books == books0 && categories == categories0
    else if MissingColumn(d) then
      e == IntegrityError && books == books0 && categories == categories0
    else
      var res := ResolveAll(categories0, NewCategoryNames(d.newCategories));
      && res.failure == Some(e) && e == MultipleObjectsReturned
      && categories == res.table
      && |books| == |books0| + 1 && books[..|books0|] == books0
      && books[|books0|].id == |books0| + 1
      && books[|books0|].categoryIds == res.ids
      && FromForm(books[|books0|], d, authors, currentSlug, slugify, set b | b in books0 :: b.slug)
  }

  /** Without duplicate names, neither the author nor any category lookup
      of `save` can find several records. */
  lemma UniqueNamesLetSaveProceed(authors: seq<Author>, categories: seq<Category>, d: Submission)
    requires UniqueNames(authors, AuthorName) && UniqueNames(categories, CategoryName)
    requires OneAuthorSource(d)
    ensures !AuthorLookupFails(authors, d)
    ensures ResolveAll(categories, NewCategoryNames(d.newCategories)).failure.None?
  {
    AtMostOneNamed(authors, AuthorName, d.newAuthorName);
    ResolveAllSucceeds(categories, NewCategoryNames(d.newCategories));
  }

  /** The books, authors and categories tables. */
  class Store {
    var authors: seq<Author>
    var categories: seq<Category>
    var books: seq<Book>

    function AuthorIds(): set<nat>
      reads this
    {
      IdSet(authors, AuthorId)
    }

    function CategoryIds(): set<nat>
      reads this
    {
      IdSet(categories, CategoryId)
    }

    /** The slugs already used by a book. */
    function Slugs(): set<string>
      reads this
    {
      set b | b in books :: b.slug
    }

    ghost predicate Valid()
      reads this
    {
      Consistent(authors, categories, books)
    }

    constructor ()
      ensures Valid()
      ensures authors == [] && categories == [] && books == []
    {
      authors := [];
      categories := [];
      books := [];
    }

    /** `Author.objects.get_or_create(name=..., defaults={'biography': ...})`. */
    method GetOrCreateAuthor(name: string, biography: string) returns (r: Result<Author, DbError>)
      requires Valid()
      modifies this
      ensures Valid()
      ensures var g := GetOrCreate(old(authors), AuthorName, name, Author(|old(authors)| + 1, name, biography));
        authors == g.table && r == g.outcome
      ensures categories == old(categories) && books == old(books)
      ensures r.Ok? ==> r.value.name == name && r.value.id in AuthorIds()
    {
      var made := Author(|authors| + 1, name, biography);
      var g := GetOrCreate(authors, AuthorName, name, made);
      GetOrCreatePositional(authors, AuthorName, AuthorId, name, made);
      ConsistentGrow(authors, categories, books, g.table, categories);
      authors := g.table;
      r := g.outcome;
    }

    /** `Category.objects.get_or_create(name=...)`. */
    method GetOrCreateCategory(name: string) returns (r: Result<Category, DbError>)
      requires Valid()
      modifies this
      ensures Valid()
      ensures ResolveCategory(old(categories), name) == Resolved(categories, r)
      ensures authors == old(authors) && books == old(books)
      ensures r.Ok? ==> r.value.name == name && r.value.id in CategoryIds()
    {
      var made := Category(|categories| + 1, name);
      var g := ResolveCategory(categories, name);
      GetOrCreatePositional(categories, CategoryName, CategoryId, name, made);
      ConsistentGrow(authors, categories, books, authors, g.table);
      categories := g.table;
      r := g.outcome;
    }

    /** The slug loop of `save`: try base, base-1, base-2, ... until no book
        uses the candidate. It stops because only finitely many slugs are used. */
    method UniqueSlug(base: string) returns (slug: string)
      ensures FirstFreeSlug(slug, base, Slugs())
      ensures slug !in Slugs()
      ensures base !in Slugs() ==> slug == base
    {
      var taken := Slugs();
      slug := base;
      var counter: nat := 1;
      ghost var tried: set<string> := {};
      while slug in taken
        invariant slug == SlugCandidate(base, counter - 1)
        invariant forall j: nat :: j < counter - 1 ==> SlugCandidate(base, j) in taken
        invariant tried <= taken
        invariant forall j: nat :: SlugCandidate(base, j) in tried ==> j < counter - 1
        decreases taken - tried
      {
        forall j: nat | SlugCandidate(base, j) == slug ensures j == counter - 1 {
          SlugCandidateInjective(base, j, counter - 1);
        }
        tried := tried + {slug};
        slug := base + "-" + NatToString(counter);
        counter := counter + 1;
      }
      assert FirstFreeSlug(slug, base, taken) by {
        assert slug == SlugCandidate(base, counter - 1);
      }
      FirstFreeSlugCases(slug, base, taken);
    }

    /** The `for` loop of `save` over the typed-in category names: each is
        got or created and added to the just-inserted last book, until one
        fails. */
    method AttachNewCategories(names: seq<string>, saved: seq<Book>, book: Book)
      returns (added: set<nat>, failure: Option<DbError>)
      requires Valid() && books == saved + [book] && book.categoryIds == {}
      modifies this
      ensures Valid()
      ensures ResolveAll(old(categories), names) == Resolution(categories, added, failure)
      ensures books == saved + [book.(categoryIds := added)]
      ensures authors == old(authors)
    {
      added := {};
      failure := None;
      ConsistentPrefix(authors, categories, saved, book);
      var i := 0;
      while i < |names|
        invariant 0 <= i <= |names|
        invariant Valid() && authors == old(authors)
        invariant Consistent(authors, categories, saved) && book.id == |saved| + 1
        invariant book.authorId in AuthorIds() && added <= CategoryIds()
        invariant ResolveAll(old(categories), names[..i]) == Resolution(categories, added, None)
        invariant books == saved + [book.(categoryIds := added)]
      {
        ResolveAllStep(old(categories), names, i);
        ghost var before := categories;
        var c := GetOrCreateCategory(names[i]);
        if c.Err? {
          ResolveAllStops(old(categories), names, i + 1);
          return added, Some(c.error);
        }
        ConsistentGrow(authors, before, saved, authors, categories);
        added := added + {c.value.id};
        ConsistentAppend(authors, categories, saved, book.(categoryIds := added));
        books := saved + [book.(categoryIds := added)];
        i := i + 1;
      }
      assert names[..i] == names;
    }

    /** The first half of `save`: resolve a typed-in author, give the book
        a slug unless it has one, and insert it, without categories yet. A
        missing NOT NULL value is an IntegrityError; a typed-in author name
        matching several authors is MultipleObjectsReturned. */
    method InsertBook(d: Submission, currentSlug: string, slugify: string -> string)
      returns (r: Result<Book, DbError>)
      requires Valid()
      requires d.author.Some? ==> d.author.value in AuthorIds()
      modifies this
      ensures Valid()
      ensures old(authors) <= authors && categories == old(categories)
      ensures d.newAuthorName == "" ==> authors == old(authors)
      ensures d.newAuthorName != "" ==>
        authors == GetOrCreate(old(authors), AuthorName, d.newAuthorName,
                               Author(|old(authors)| + 1, d.newAuthorName, d.newAuthorBiography)).table
      ensures AuthorLookupFails(old(authors), d) ==> r == Err(MultipleObjectsReturned)
      ensures !AuthorLookupFails(old(authors), d) ==> (r.Ok? <==> !MissingColumn(d))
      ensures !AuthorLookupFails(old(authors), d) && MissingColumn(d) ==> r == Err(IntegrityError)
      ensures r.Err? ==> books == old(books)
      ensures r.Ok? ==> var book := r.value;
        && books == old(books) + [book]
        && book.id == |old(books)| + 1 && book.categoryIds == {}
        && FromForm(book, d, authors, currentSlug, slugify, old(Slugs()))
    {
      var authorId := d.author;
      if d.newAuthorName != "" {
        var a := GetOrCreateAuthor(d.newAuthorName, d.newAuthorBiography);
        if a.Err? {
          return Err(a.error);
        }
        authorId := Some(a.value.id);
        assert a.value in authors;
      }
      var slug := currentSlug;
      if slug == "" {
        slug := UniqueSlug(slugify(d.title));
      }
      if authorId.None? || d.publishedDate.None? || d.totalCopies.None? || d.availableCopies.None? {
        return Err(IntegrityError);
      }
      var book := Book(|books| + 1, d.title, authorId.value, d.isbn, {}, d.publisher, d.publishedDate.value,
                       d.totalCopies.value, d.availableCopies.value, slug);
      ConsistentAppend(authors, categories, books, book);
      books := books + [book];
      r := Ok(book);
    }

    /** The second half of `save`, after the book was inserted without
        categories: attach the typed-in categories, then replace the book's
        categories by the selected ones (`save_m2m`). */
    method SaveCategories(b: Behaviour, d: Submission, saved: seq<Book>, book: Book)
      returns (r: Result<Book, DbError>)
      requires Valid() && books == saved + [book] && book.categoryIds == {}
      requires d.categoryIds <= CategoryIds()
      modifies this
      ensures Valid()
      ensures authors == old(authors)
      ensures var res := ResolveAll(old(categories), NewCategoryNames(d.newCategories));
        && categories == res.table
        && (r.Ok? <==> res.failure.None?)
        && (r.Err? ==> r == Err(MultipleObjectsReturned) && books == saved + [book.(categoryIds := res.ids)])
        && (r.Ok? ==> r.value == book.(categoryIds := SavedCategories(b, res.ids, d.categoryIds))
                      && books == saved + [r.value])
    {
      ghost var names := NewCategoryNames(d.newCategories);
      ResolveAllFailure(old(categories), names);
      var added: set<nat> := {};
      if d.newCategories != "" {
        var failure;
        added, failure := AttachNewCategories(CategoryNames(d.newCategories), saved, book);
        if failure.Some? {
          return Err(failure.value);
        }
      } else {
        assert ResolveAll(old(categories), names) == Resolution(categories, {}, None);
      }
      IdSetGrows(old(categories), categories, CategoryId);
      ConsistentPrefix(authors, categories, saved, book.(categoryIds := added));
      var stored := book.(categoryIds := SavedCategories(b, added, d.categoryIds));
      ConsistentAppend(authors, categories, saved, stored);
      books := saved + [stored];
      r := Ok(stored);
    }

    /** `BookForm.save(commit=True)` on cleaned data `d`: insert the book,
        get-or-create and attach every typed-in category, then save the
        selected categories (`save_m2m`). An error stops the steps where it
        happens; what was written before it stays. */
    method Save(b: Behaviour, d: Submission, currentSlug: string, slugify: string -> string)
      returns (r: Result<Book, DbError>)
      requires Valid()
      requires d.author.Some? ==> d.author.value in AuthorIds()
      requires d.categoryIds <= CategoryIds()
      modifies this
      ensures Valid()
      ensures old(authors) <= authors && old(categories) <= categories
      ensures d.newAuthorName == "" ==> authors == old(authors)
      ensures d.newAuthorName != "" ==>
        authors == GetOrCreate(old(authors), AuthorName, d.newAuthorName,
                               Author(|old(authors)| + 1, d.newAuthorName, d.newAuthorBiography)).table
      ensures authors == AuthorsAfterSave(old(authors), d)
      ensures r.Err? ==>
        SaveErrorLeaves(old(authors), old(categories), old(books), authors, categories, books, d, currentSlug, slugify, r.error)
      ensures AuthorLookupFails(old(authors), d) ==>
        r == Err(MultipleObjectsReturned) && books == old(books) && categories == old(categories)
      ensures !AuthorLookupFails(old(authors), d) && MissingColumn(d) ==>
        r == Err(IntegrityError) && books == old(books) && categories == old(categories)
      ensures !AuthorLookupFails(old(authors), d) && !MissingColumn(d) ==>
        var res := ResolveAll(old(categories), NewCategoryNames(d.newCategories));
        && (r.Ok? <==> res.failure.None?)
        && (r.Err? ==> r == Err(MultipleObjectsReturned) && categories == res.table)
        && (r.Err? ==> |books| == |old(books)| + 1 && books[..|old(books)|] == old(books)
                       && books[|old(books)|].id == |old(books)| + 1
                       && books[|old(books)|].categoryIds == res.ids
                       && FromForm(books[|old(books)|], d, authors, currentSlug, slugify, old(Slugs())))
      ensures r.Ok? ==> var book := r.value;
        && books == old(books) + [book]
        && book.id == |old(books)| + 1
        && FromForm(book, d, authors, currentSlug, slugify, old(Slugs()))
      ensures r.Ok? ==> var res := ResolveAll(old(categories), NewCategoryNames(d.newCategories));
        categories == res.table && r.value.categoryIds == SavedCategories(b, res.ids, d.categoryIds)
    {
      ResolveAllFailure(old(categories), NewCategoryNames(d.newCategories));
      var saved := books;
      var inserted := InsertBook(d, currentSlug, slugify);
      if inserted.Err? {
        return inserted;
      }
      IdSetGrows(old(categories), categories, CategoryId);
      r := SaveCategories(b, d, saved, inserted.value);
    }

    /** The valid-form branch of `book_add`: save the cleaned data `d`. With
        no duplicate author or category names it is always saved, except
        that a total of zero with no available count leaves the NOT NULL
        column empty. */
    method AddValidated(b: Behaviour, d: Submission, slugify: string -> string) returns (r: AddOutcome)
      requires Valid()
      requires OneAuthorSource(d) && d.publishedDate.Some? && d.totalCopies.Some?
      requires d.totalCopies.value != 0 ==> d.availableCopies.Some?
      requires d.availableCopies.Some? && d.totalCopies.value != 0 ==> d.availableCopies.value <= d.totalCopies.value
      requires d.author.Some? ==> d.author.value in AuthorIds()
      requires d.categoryIds <= CategoryIds()
      modifies this
      ensures Valid()
      ensures !r.Rejected?
      ensures r.Failed? ==>
        SaveErrorLeaves(old(authors), old(categories), old(books), authors, categories, books, d, "", slugify, r.error)
      ensures r.Added? ==> FromForm(r.book, d, authors, "", slugify, old(Slugs()))
      ensures UniqueNames(old(authors), AuthorName) && UniqueNames(old(categories), CategoryName) ==>
        r.Added? || (r == Failed(IntegrityError) && d.totalCopies == Some(0) && d.availableCopies.None?)
      ensures r.Added? ==> books == old(books) + [r.book] && r.book.slug !in old(Slugs())
      ensures r.Added? ==> var res := ResolveAll(old(categories), NewCategoryNames(d.newCategories));
        categories == res.table && r.book.categoryIds == SavedCategories(b, res.ids, d.categoryIds)
      ensures authors == AuthorsAfterSave(old(authors), d)
      ensures r.Added? && r.book.totalCopies != 0 ==> r.book.availableCopies <= r.book.totalCopies
    {
      if UniqueNames(authors, AuthorName) && UniqueNames(categories, CategoryName) {
        UniqueNamesLetSaveProceed(authors, categories, d);
      }
      var saved := Save(b, d, "", slugify);
      match saved
      case Ok(book) =>
        FirstFreeSlugNotTaken(book.slug, slugify(d.title), old(Slugs()));
        r := Added(book);
      case Err(e) =>
        ResolveAllFailure(old(categories), NewCategoryNames(d.newCategories));
        r := Failed(e);
    }

    /** `book_add` on a POST: validate the form against the stored authors
        and categories; when it is valid, save it. An invalid form changes
        nothing. */
    method BookAdd(b: Behaviour, raw: Submission, slugify: string -> string) returns (r: AddOutcome)
      requires Valid()
      modifies this
      ensures Valid()
      ensures var v := Validate(b, old(AuthorIds()), old(CategoryIds()), raw);
        && (r.Rejected? <==> v.Err?)
        && (r.Rejected? ==> r.errors == v.error)
        && (r.Added? ==> FromForm(r.book, v.value, authors, "", slugify, old(Slugs())))
        && (UniqueNames(old(authors), AuthorName) && UniqueNames(old(categories), CategoryName) && v.Ok? ==>
              r.Added? || (r == Failed(IntegrityError) && v.value.totalCopies == Some(0) && v.value.availableCopies.None?))
      ensures r.Rejected? ==> authors == old(authors) && categories == old(categories) && books == old(books)
      ensures r.Failed? ==> var v := Validate(b, old(AuthorIds()), old(CategoryIds()), raw);
        v.Ok? && SaveErrorLeaves(old(authors), old(categories), old(books), authors, categories, books,
                                 v.value, "", slugify, r.error)
      ensures r.Added? ==> books == old(books) + [r.book] && r.book.slug !in old(Slugs())
      ensures r.Added? ==> var res := ResolveAll(old(categories), NewCategoryNames(raw.newCategories));
        categories == res.table && r.book.categoryIds == SavedCategories(b, res.ids, raw.categoryIds)
      ensures raw.newAuthorName == "" ==> authors == old(authors)
      ensures !r.Rejected? ==> authors == AuthorsAfterSave(old(authors), raw)
      ensures r.Added? && r.book.totalCopies != 0 ==> r.book.availableCopies <= r.book.totalCopies
    {
      var v := Validate(b, AuthorIds(), CategoryIds(), raw);
      if v.Err? {
        return Rejected(v.error);
      }
      var d := v.value;
      assert && d.newAuthorName == raw.newAuthorName && d.newAuthorBiography == raw.newAuthorBiography
             && d.newCategories == raw.newCategories && d.categoryIds == raw.categoryIds;
      r := AddValidated(b, d, slugify);
    }
  }
}

=== FILE: query.dfy ===
/** In-memory counterparts of the QuerySet operations the views use:
    `filter(...)`, `.count()`, `order_by(...)` and the slice `[:k]`. Rows
    that tie under `order_by` keep their storage order here; the database
    leaves that order unspecified, so no contract depends on it. */
module Query {
  import opened Records

  /** `filter(p)`: the rows satisfying `p`, in storage order. */
  function Filter<T(!new)>(s: seq<T>, p: T -> bool): (r: seq<T>)
    ensures |r| <= |s|
    ensures forall x :: x in r <==> x in s && p(x)
  {
    if s == [] then []
    else
      assert s == [s[0]] + s[1..];
      (if p(s[0]) then [s[0]] else []) + Filter(s[1..], p)
  }

  /** A filter that every row passes returns the rows unchanged, in order. */
  lemma {:induction false} FilterAll<T(!new)>(s: seq<T>, p: T -> bool)
    requires forall x :: x in s ==> p(x)
    ensures Filter(s, p) == s
  {
    if s != [] {
      FilterAll(s[1..], p);
    }
  }

  /** `filter` only drops rows: it never repeats one. */
  lemma {:induction false} FilterSubMultiset<T(!new)>(s: seq<T>, p: T -> bool)
    ensures multiset(Filter(s, p)) <= multiset(s)
  {
    if s != [] {
      FilterSubMultiset(s[1..], p);
      assert s == [s[0]] + s[1..];
    }
  }

  /** A filter that no row passes returns nothing. */
  lemma {:induction false} FilterNone<T(!new)>(s: seq<T>, p: T -> bool)
    requires forall x :: x in s ==> !p(x)
    ensures Filter(s, p) == []
  {
    if s != [] {
      FilterNone(s[1..], p);
    }
  }

  /** Filtering distributes over concatenation. */
  lemma {:induction false} FilterConcat<T(!new)>(a: seq<T>, b: seq<T>, p: T -> bool)
    ensures Filter(a + b, p) == Filter(a, p) + Filter(b, p)
  {
    if a == [] {
      assert a + b == b;
    } else {
      assert (a + b)[1..] == a[1..] + b;
      FilterConcat(a[1..], b, p);
    }
  }

  /** A stricter filter never returns more rows. */
  lemma {:induction false} FilterMonotone<T(!new)>(s: seq<T>, p: T -> bool, q: T -> bool)
    requires forall x :: x in s && p(x) ==> q(x)
    ensures |Filter(s, p)| <= |Filter(s, q)|
  {
    if s != [] {
      FilterMonotone(s[1..], p, q);
    }
  }

  /** The positions of `s` from `lo` on whose row satisfies `p`. */
  ghost function PositionsFrom<T(!new)>(s: seq<T>, p: T -> bool, lo: nat): set<nat> {
    set i: nat | lo <= i < |s| && p(s[i])
  }

  /** `.count()` of a filter is the number of positions whose row passes it. */
  lemma FilterSize<T(!new)>(s: seq<T>, p: T -> bool, positions: set<nat>)
    requires forall i: nat :: i in positions <==> i < |s| && p(s[i])
    ensures |Filter(s, p)| == |positions|
  {
    FilterSizeFrom(s, p, 0);
    assert PositionsFrom(s, p, 0) == positions;
  }

  lemma {:induction false} FilterSizeFrom<T(!new)>(s: seq<T>, p: T -> bool, lo: nat)
    requires lo <= |s|
    ensures |Filter(s[lo..], p)| == |PositionsFrom(s, p, lo)|
    decreases |s| - lo
  {
    if lo == |s| {
      assert PositionsFrom(s, p, lo) == {};
    } else {
      FilterSizeFrom(s, p, lo + 1);
      assert s[lo..][1..] == s[lo + 1..];
      var rest := PositionsFrom(s, p, lo + 1);
      if p(s[lo]) {
        assert PositionsFrom(s, p, lo) == rest + {lo};
      } else {
        assert PositionsFrom(s, p, lo) == rest;
      }
    }
  }

  /** `get(...)`: the single row satisfying `p`; no such row is
      DoesNotExist, several are MultipleObjectsReturned. */
  function Get<T(!new)>(s: seq<T>, p: T -> bool): (r: Result<T, DbError>)
    ensures r.Ok? <==> |Filter(s, p)| == 1
    ensures r.Ok? ==> Filter(s, p) == [r.value] && r.value in s && p(r.value)
    ensures r == Err(DoesNotExist) <==> forall x :: x in s ==> !p(x)
    ensures r == Err(MultipleObjectsReturned) <==> |Filter(s, p)| > 1
  {
    var found := Filter(s, p);
    if |found| == 0 then Err(DoesNotExist)
    else
      assert found[0] in found;
      if |found| == 1 then Ok(found[0]) else Err(MultipleObjectsReturned)
  }

  /** The slice `[:k]`. */
  function Take<T(!new)>(s: seq<T>, k: nat): (r: seq<T>)
    ensures |r| == Min(k, |s|)
    ensures r == s[..|r|]
  {
    if |s| <= k then s else s[..k]
  }

  /** `le` is a total preorder: every two rows compare, transitively. */
  ghost predicate TotalPreorder<T(!new)>(le: (T, T) -> bool) {
    && (forall a, b :: le(a, b) || le(b, a))
    && (forall a, b, c :: le(a, b) && le(b, c) ==> le(a, c))
  }

  ghost predicate SortedBy<T(!new)>(s: seq<T>, le: (T, T) -> bool) {
    forall i, j :: 0 <= i < j < |s| ==> le(s[i], s[j])
  }

  function Insert<T(!new)>(x: T, s: seq<T>, le: (T, T) -> bool): (r: seq<T>)
    ensures multiset(r) == multiset(s) + multiset{x}
    ensures forall y :: y in r <==> y == x || y in s
  {
    if s == [] || le(x, s[0]) then [x] + s
    else
      assert s == [s[0]] + s[1..];
      [s[0]] + Insert(x, s[1..], le)
  }

  /** `order_by`: a permutation of the rows (insertion sort by `le`). */
  function SortBy<T(!new)>(s: seq<T>, le: (T, T) -> bool): (r: seq<T>)
    ensures multiset(r) == multiset(s)
    ensures |r| == |s|
    ensures forall x :: x in r <==> x in s
  {
    if s == [] then []
    else
      assert s == [s[0]] + s[1..];
      Insert(s[0], SortBy(s[1..], le), le)
  }

  lemma {:induction false} InsertSorted<T(!new)>(x: T, s: seq<T>, le: (T, T) -> bool)
    requires TotalPreorder(le) && SortedBy(s, le)
    ensures SortedBy(Insert(x, s, le), le)
  {
    var r := Insert(x, s, le);
    if s == [] || le(x, s[0]) {
      forall i, j | 0 <= i < j < |r| ensures le(r[i], r[j]) {
        if i == 0 {
          assert le(x, s[0]) && le(s[0], s[j - 1]);
        }
      }
    } else {
      var t := Insert(x, s[1..], le);
      InsertSorted(x, s[1..], le);
      assert le(s[0], x);
      forall y | y in t ensures le(s[0], y) {
        assert y in multiset(t);
        if y != x {
          assert y in multiset(s[1..]);
          var k :| 0 <= k < |s[1..]| && s[1..][k] == y;
          assert s[k + 1] == y;
        }
      }
      forall i, j | 0 <= i < j < |r| ensures le(r[i], r[j]) {
        if i == 0 {
          assert r[j] == t[j - 1];
        } else {
          assert r[i] == t[i - 1] && r[j] == t[j - 1];
        }
      }
    }
  }

  /** `order_by` returns its rows in `le` order. */
  lemma {:induction false} SortBySorted<T(!new)>(s: seq<T>, le: (T, T) -> bool)
    requires TotalPreorder(le)
    ensures SortedBy(SortBy(s, le), le)
  {
    if s != [] {
      SortBySorted(s[1..], le);
      InsertSorted(s[0], SortBy(s[1..], le), le);
    }
  }

  /** `order_by(...)[:k]`: at most `k` of the rows, in order, and no row left
      out ranks strictly before one kept. */
  lemma TopK<T(!new)>(s: seq<T>, le: (T, T) -> bool, k: nat)
    requires TotalPreorder(le)
    ensures var r := Take(SortBy(s, le), k);
      && |r| == Min(k, |s|)
      && multiset(r) <= multiset(s)
      && (forall x :: x in r ==> x in s)
      && SortedBy(r, le)
      && (forall x, y :: x in s && x !in r && y in r ==> le(y, x))
  {
    var t := SortBy(s, le);
    var r := Take(t, k);
    SortBySorted(s, le);
    assert t == r + t[|r|..];
    assert multiset(t) == multiset(r) + multiset(t[|r|..]);
    forall x | x in r ensures x in s {
      assert x in multiset(r);
    }
    forall x, y | x in s && x !in r && y in r ensures le(y, x) {
      assert x in multiset(t);
      var i :| 0 <= i < |t| && t[i] == x;
      var j :| 0 <= j < |r| && r[j] == y;
      assert t[j] == y;
    }
  }
}

=== FILE: records.dfy ===
/** The library's records, abstracted to the fields the forms and views read.
    Dates are day numbers; a loan's missing return date is `None`. */
module Records {

  datatype Option<T> = None | Some(value: T)

  datatype Result<T, E> = Ok(value: T) | Err(error: E)

  /** The ORM errors the modelled code can raise: `get` finding nothing or
      several rows, and a NOT NULL column left empty at insert time. */
  datatype DbError = DoesNotExist | MultipleObjectsReturned | IntegrityError

  datatype Author = Author(id: nat, name: string, biography: string)

  datatype Category = Category(id: nat, name: string)

  /** A book's categories are a set of category ids (the many-valued reading
      the entry form and the views use). */
  datatype Book = Book(
    id: nat,
    title: string,
    authorId: nat,
    isbn: string,
    categoryIds: set<nat>,
    publisher: string,
    publishedDate: int,
    totalCopies: nat,
    availableCopies: nat,
    slug: string)

  datatype Member = Member(id: nat, firstName: string, lastName: string, email: string)

  datatype Loan = Loan(
    id: nat,
    bookId: nat,
    memberId: nat,
    issueDate: int,
    dueDate: int,
    returnDate: Option<int>)

  datatype Fine = Fine(id: nat, loanId: nat, amount: int, paid: bool)

  /** A loan is active while no return date is recorded. */
  predicate IsActive(l: Loan) {
    l.returnDate.None?
  }

  /** An active loan whose due date lies strictly before `today`. */
  predicate IsOverdue(l: Loan, today: int) {
    IsActive(l) && l.dueDate < today
  }

  function Min(a: int, b: int): int {
    if a <= b then a else b
  }
}

=== FILE: text.dfy ===
/** ASCII stand-ins for the Python string methods and the database's
    case-insensitive matching that the library application relies on:
    str.isdigit, str.strip, str.split, str.replace, str.upper, f-string
    formatting of a counter, and the `icontains` lookup. */
module Text {

  predicate IsDigit(c: char) { '0' <= c <= '9' }

  /** str.isdigit on ASCII input: true of a non-empty string of digits only. */
  predicate IsDigits(s: string) {
    |s| > 0 && forall i :: 0 <= i < |s| ==> IsDigit(s[i])
  }

  /** str.isspace on ASCII characters: space, \t \n \v \f \r and the
      separators 0x1c-0x1f. */
  predicate IsSpace(c: char) {
    c == ' ' || (9 <= c as int <= 13) || (28 <= c as int <= 31)
  }

  function LowerChar(c: char): char {
    if 'A' <= c <= 'Z' then (c as int + 32) as char else c
  }

  function UpperChar(c: char): char {
    if 'a' <= c <= 'z' then (c as int - 32) as char else c
  }

  function Lower(s: string): string {
    seq(|s|, i requires 0 <= i < |s| => LowerChar(s[i]))
  }

  function Upper(s: string): string {
    seq(|s|, i requires 0 <= i < |s| => UpperChar(s[i]))
  }

  /** `t` occurs in `s` starting at position `i`. */
  predicate OccursAt(s: string, t: string, i: int) {
    0 <= i <= |s| - |t| && s[i..i + |t|] == t
  }

  /** `t` occurs in `s` as a contiguous block. */
  predicate Contains(s: string, t: string) {
    exists i | 0 <= i <= |s| - |t| :: OccursAt(s, t, i)
  }

  /** The `icontains` lookup: substring match after folding both sides to
      lower case. */
  predicate IContains(s: string, t: string): (r: bool)
    ensures t == "" ==> r
    ensures r ==> |t| <= |s|
  {
    assert t == "" ==> OccursAt(Lower(s), Lower(t), 0);
    Contains(Lower(s), Lower(t))
  }

  /** A case-sensitive match is also a match for `icontains`. */
  lemma ContainsIContains(s: string, t: string, i: int)
    requires OccursAt(s, t, i)
    ensures IContains(s, t)
  {
    assert OccursAt(Lower(s), Lower(t), i) by {
      forall k | 0 <= k < |t| ensures Lower(s)[i..i + |t|][k] == Lower(t)[k] {
        assert s[i..i + |t|][k] == t[k];
      }
    }
  }

  /** Folding either side to upper or lower case first never changes the
      outcome of `icontains`. */
  lemma IContainsIgnoresCase(s: string, t: string)
    ensures IContains(s, t) == IContains(Upper(s), t)
    ensures IContains(s, t) == IContains(s, Upper(t))
    ensures IContains(s, t) == IContains(Lower(s), Lower(t))
  {
    LowerOfUpper(s);
    LowerOfUpper(t);
    LowerIdempotent(s);
    LowerIdempotent(t);
  }

  lemma LowerOfUpper(s: string)
    ensures Lower(Upper(s)) == Lower(s)
  {
    assert forall i :: 0 <= i < |s| ==> Lower(Upper(s))[i] == Lower(s)[i];
  }

  lemma LowerIdempotent(s: string)
    ensures Lower(Lower(s)) == Lower(s)
  {
    assert forall i :: 0 <= i < |s| ==> Lower(Lower(s))[i] == Lower(s)[i];
  }

  /** A text always contains itself, in any case. */
  lemma IContainsSelf(s: string, t: string)
    requires Lower(s) == Lower(t)
    ensures IContains(s, t)
  {
    assert OccursAt(Lower(s), Lower(t), 0);
  }

  /** str.replace(c, ''): every occurrence of `c` removed, the rest kept in order. */
  function Without(s: string, c: char): (r: string)
    ensures c !in r
    ensures forall x :: x in r <==> x in s && x != c
    ensures |r| <= |s|
  {
    if s == [] then []
    else (if s[0] == c then [] else [s[0]]) + Without(s[1..], c)
  }

  /** Dropping leading whitespace (the left half of str.strip). */
  function TrimStart(s: string): (r: string)
    ensures |r| <= |s| && r == s[|s| - |r|..]
    ensures forall k :: 0 <= k < |s| - |r| ==> IsSpace(s[k])
    ensures r == [] || !IsSpace(r[0])
  {
    if s != [] && IsSpace(s[0]) then
      var r := TrimStart(s[1..]);
      assert s[1..][|s| - 1 - |r|..] == s[|s| - |r|..];
      assert forall k :: 1 <= k < |s| - |r| ==> s[k] == s[1..][k - 1];
      r
    else s
  }

  /** Dropping trailing whitespace (the right half of str.strip). */
  function TrimEnd(s: string): (r: string)
    ensures |r| <= |s| && r == s[..|r|]
    ensures forall k :: |r| <= k < |s| ==> IsSpace(s[k])
    ensures r == [] || !IsSpace(r[|r| - 1])
  {
    if s != [] && IsSpace(s[|s| - 1]) then
      var r := TrimEnd(s[..|s| - 1]);
      assert s[..|s| - 1][..|r|] == s[..|r|];
      assert forall k :: |r| <= k < |s| - 1 ==> s[k] == s[..|s| - 1][k];
      r
    else s
  }

  /** `r` is `s` with the whitespace before position `i` and after
      position `i + |r|` cut away. */
  ghost predicate TrimmedAt(s: string, r: string, i: int) {
    && OccursAt(s, r, i)
    && (forall k :: 0 <= k < i ==> IsSpace(s[k]))
    && (forall k :: i + |r| <= k < |s| ==> IsSpace(s[k]))
  }

  /** str.strip(): a contiguous slice of `s` that neither starts nor ends
      with whitespace, obtained by removing whitespace only. */
  function Strip(s: string): (r: string)
    ensures exists i :: TrimmedAt(s, r, i)
    ensures r == [] || (!IsSpace(r[0]) && !IsSpace(r[|r| - 1]))
  {
    var t := TrimStart(s);
    var r := TrimEnd(t);
    TrimBoth(s, t, r);
    r
  }

  /** Trimming the start and then the end cuts whitespace from both sides
      of one slice. */
  lemma TrimBoth(s: string, t: string, r: string)
    requires |t| <= |s| && t == s[|s| - |t|..] && forall k :: 0 <= k < |s| - |t| ==> IsSpace(s[k])
    requires t == [] || !IsSpace(t[0])
    requires |r| <= |t| && r == t[..|r|] && forall k :: |r| <= k < |t| ==> IsSpace(t[k])
    ensures TrimmedAt(s, r, |s| - |t|)
    ensures r == [] || !IsSpace(r[0])
  {
    var i := |s| - |t|;
    assert t == s[i..] && r == t[..|r|];
    assert s[i..i + |r|] == t[..|r|];
    forall k | i + |r| <= k < |s| ensures IsSpace(s[k]) {
      assert s[k] == t[k - i];
    }
    assert r == [] || r[0] == t[0];
  }

  /** Stripping twice is stripping once. */
  lemma StripIdempotent(s: string)
    ensures Strip(Strip(s)) == Strip(s)
  {
    var r := Strip(s);
    assert r == [] || !IsSpace(r[0]);
    assert TrimStart(r) == r;
    assert r == [] || !IsSpace(r[|r| - 1]);
    assert TrimEnd(r) == r;
  }

  /** str.split(sep): the pieces between occurrences of `sep`. */
  function Split(s: string, sep: char): (r: seq<string>)
    ensures |r| >= 1
    ensures forall k :: 0 <= k < |r| ==> sep !in r[k]
  {
    if s == [] then [""]
    else
      var rest := Split(s[1..], sep);
      if s[0] == sep then [""] + rest
      else [[s[0]] + rest[0]] + rest[1..]
  }

  /** sep.join(pieces), the inverse of Split. */
  function Join(pieces: seq<string>, sep: char): string
    requires |pieces| >= 1
  {
    if |pieces| == 1 then pieces[0]
    else pieces[0] + [sep] + Join(pieces[1..], sep)
  }

  /** Splitting loses nothing: joining the pieces back gives the input. */
  lemma {:induction false} JoinSplit(s: string, sep: char)
    ensures Join(Split(s, sep), sep) == s
  {
    if s != [] {
      var rest := Split(s[1..], sep);
      JoinSplit(s[1..], sep);
      if s[0] == sep {
        assert Split(s, sep)[1..] == rest;
      } else {
        var r := Split(s, sep);
        assert r[1..] == rest[1..];
        if |rest| == 1 {
          assert Join(r, sep) == [s[0]] + rest[0];
        } else {
          assert Join(r, sep) == [s[0]] + rest[0] + [sep] + Join(rest[1..], sep);
        }
        assert Join(r, sep) == [s[0]] + Join(rest, sep);
      }
    }
  }

  function DigitChar(d: nat): char
    requires d < 10
  {
    ('0' as int + d) as char
  }

  function DigitValue(c: char): nat {
    if IsDigit(c) then (c as int - '0' as int) as nat else 0
  }

  /** The decimal rendering `f"{n}"` of a non-negative counter. */
  function NatToString(n: nat): (r: string)
    ensures IsDigits(r)
  {
    if n < 10 then [DigitChar(n)]
    else NatToString(n / 10) + [DigitChar(n % 10)]
  }

  /** Reading a string of decimal digits back as a number. */
  function ParseNat(s: string): nat {
    if s == [] then 0
    else ParseNat(s[..|s| - 1]) * 10 + DigitValue(s[|s| - 1])
  }

  /** Rendering a counter in decimal and reading it back gives the counter. */
  lemma {:induction false} ParseNatToString(n: nat)
    ensures ParseNat(NatToString(n)) == n
  {
    if n >= 10 {
      var s := NatToString(n);
      assert s[..|s| - 1] == NatToString(n / 10);
      ParseNatToString(n / 10);
    }
  }

  /** Distinct counters render as distinct strings. */
  lemma NatToStringInjective(m: nat, n: nat)
    requires NatToString(m) == NatToString(n)
    ensures m == n
  {
    ParseNatToString(m);
    ParseNatToString(n);
  }
}

=== FILE: views.dfy ===
/** The report logic of the library's views (library/views.py): the
    dashboard counters and top-five lists, the book list with its search and
    category filter, the book and member pages, the loan lists with their
    overdue annotations, the author and category lists, and the global
    search. Every view reads the tables it needs as sequences and the
    current date as a day number `today`; rendering is not modelled. */
module Views {
  import opened Records
  import opened Text
  import opened Query

  /* ---------- orderings used by `order_by` ---------- */

  /** Loan `a` was issued no earlier than `b`: the order of `order_by('-issue_date')`. */
  predicate IssuedLater(a: Loan, b: Loan) { a.issueDate >= b.issueDate }

  /** Loan `a` is due no later than `b`: the order of `order_by('due_date')`. */
  predicate DueBefore(a: Loan, b: Loan) { a.dueDate <= b.dueDate }

  /** The return date of a loan, 0 while it is out (only ever read for
      returned loans). */
  function ReturnDay(l: Loan): int {
    if l.returnDate.Some? then l.returnDate.value else 0
  }

  /** Loan `a` came back no earlier than `b`: the order of `order_by('-return_date')`. */
  predicate ReturnedLater(a: Loan, b: Loan) { ReturnDay(a) >= ReturnDay(b) }

  lemma IssuedLaterTotal()
    ensures TotalPreorder(IssuedLater)
  {
  }

  lemma DueBeforeTotal()
    ensures TotalPreorder(DueBefore)
  {
  }

  lemma ReturnedLaterTotal()
    ensures TotalPreorder(ReturnedLater)
  {
  }

  /* ---------- row predicates used by `filter` ---------- */

  predicate IsReturned(l: Loan) { l.returnDate.Some? }

  function OverdueOn(today: int): Loan -> bool {
    (l: Loan) => IsOverdue(l, today)
  }

  function OfBook(id: nat): Loan -> bool {
    (l: Loan) => l.bookId == id
  }

  function ActiveOfBook(id: nat): Loan -> bool {
    (l: Loan) => l.bookId == id && IsActive(l)
  }

  function OfMember(id: nat): Loan -> bool {
    (l: Loan) => l.memberId == id
  }

  function ActiveOfMember(id: nat): Loan -> bool {
    (l: Loan) => l.memberId == id && IsActive(l)
  }

  /* ---------- dashboard (views.py:14-42) ---------- */

  /** The number of loans not yet returned (`return_date__isnull=True`). */
  function ActiveLoanCount(loans: seq<Loan>): (n: nat)
    ensures n == |set i: nat | i < |loans| && IsActive(loans[i])|
    ensures n <= |loans|
  {
    FilterSize(loans, IsActive, set i: nat | i < |loans| && IsActive(loans[i]));
    |Filter(loans, IsActive)|
  }

  /** The active loans whose due date is before `today`, counted. */
  function OverdueLoanCount(loans: seq<Loan>, today: int): (n: nat)
    ensures n == |set i: nat | i < |loans| && IsOverdue(loans[i], today)|
  {
    FilterSize(loans, OverdueOn(today), set i: nat | i < |loans| && IsOverdue(loans[i], today));
    |Filter(loans, OverdueOn(today))|
  }

  /** An overdue loan is an active loan, so the dashboard never shows more
      overdue than active loans. */
  lemma OverdueAtMostActive(loans: seq<Loan>, today: int)
    ensures OverdueLoanCount(loans, today) <= ActiveLoanCount(loans)
  {
    FilterMonotone(loans, OverdueOn(today), IsActive);
  }

  /** The five most recently issued loans. */
  function RecentLoans(loans: seq<Loan>): (r: seq<Loan>)
    ensures |r| == Min(5, |loans|)
    ensures multiset(r) <= multiset(loans)
    ensures SortedBy(r, IssuedLater)
    ensures forall x, y :: x in loans && x !in r && y in r ==> IssuedLater(y, x)
  {
    var r := Take(SortBy(loans, IssuedLater), 5);
    assert && multiset(r) <= multiset(loans) && SortedBy(r, IssuedLater)
           && (forall x, y :: x in loans && x !in r && y in r ==> IssuedLater(y, x)) by {
      IssuedLaterTotal();
      TopK(loans, IssuedLater, 5);
    }
    r
  }

  /** The five most recently returned loans; loans still out never appear. */
  function RecentReturns(loans: seq<Loan>): (r: seq<Loan>)
    ensures |r| == Min(5, |Filter(loans, IsReturned)|)
    ensures multiset(r) <= multiset(Filter(loans, IsReturned))
    ensures forall l :: l in r ==> l in loans && IsReturned(l)
    ensures SortedBy(r, ReturnedLater)
    ensures forall x, y :: x in loans && IsReturned(x) && x !in r && y in r ==> ReturnedLater(y, x)
  {
    var returned := Filter(loans, IsReturned);
    var r := Take(SortBy(returned, ReturnedLater), 5);
    assert && (forall l :: l in r ==> l in returned) && SortedBy(r, ReturnedLater)
           && multiset(r) <= multiset(returned)
           && (forall x, y :: x in returned && x !in r && y in r ==> ReturnedLater(y, x)) by {
      ReturnedLaterTotal();
      TopK(returned, ReturnedLater, 5);
    }
    r
  }

  /** A book with its `Count('loan')` annotation. */
  datatype BookCount = BookCount(book: Book, loanCount: nat)

  /** Book `a` was lent at least as often as `b`: the order of `order_by('-loan_count')`. */
  predicate MoreLoans(a: BookCount, b: BookCount) { a.loanCount >= b.loanCount }

  lemma MoreLoansTotal()
    ensures TotalPreorder(MoreLoans)
  {
  }

  /** The number of loans ever made of the book with id `id`. */
  function LoanCount(loans: seq<Loan>, id: nat): nat {
    |Filter(loans, OfBook(id))|
  }

  /** Every book in storage order, annotated with the number of its loans
      (`annotate(loan_count=Count('loan'))`). */
  function WithLoanCounts(books: seq<Book>, loans: seq<Loan>): (r: seq<BookCount>)
    ensures |r| == |books|
    ensures forall i :: 0 <= i < |r| ==> r[i] == BookCount(books[i], LoanCount(loans, books[i].id))
  {
    seq(|books|, i requires 0 <= i < |books| => BookCount(books[i], LoanCount(loans, books[i].id)))
  }

  /** The five books with the most loans, most borrowed first. */
  function PopularBooks(books: seq<Book>, loans: seq<Loan>): (r: seq<BookCount>)
    ensures |r| == Min(5, |books|)
    ensures multiset(r) <= multiset(WithLoanCounts(books, loans))
    ensures forall e :: e in r ==> e.book in books && e.loanCount == LoanCount(loans, e.book.id)
    ensures SortedBy(r, MoreLoans)
    ensures forall x, y :: x in WithLoanCounts(books, loans) && x !in r && y in r ==> MoreLoans(y, x)
  {
    var counted := WithLoanCounts(books, loans);
    var r := Take(SortBy(counted, MoreLoans), 5);
    assert && (forall e :: e in r ==> e in counted) && SortedBy(r, MoreLoans)
           && multiset(r) <= multiset(counted)
           && (forall x, y :: x in counted && x !in r && y in r ==> MoreLoans(y, x)) by {
      MoreLoansTotal();
      TopK(counted, MoreLoans, 5);
    }
    forall e | e in r ensures e.book in books && e.loanCount == LoanCount(loans, e.book.id) {
      var i :| 0 <= i < |counted| && counted[i] == e;
    }
    r
  }

  datatype Dashboard = Dashboard(
    totalBooks: nat,
    totalMembers: nat,
    activeLoans: nat,
    overdueLoans: nat,
    recentLoans: seq<Loan>,
    recentReturns: seq<Loan>,
    popularBooks: seq<BookCount>)

  /** The dashboard's figures. */
  function DashboardOf(books: seq<Book>, members: seq<Member>, loans: seq<Loan>, today: int): (r: Dashboard)
    ensures r.totalBooks == |books| && r.totalMembers == |members|
    ensures r.overdueLoans <= r.activeLoans <= |loans|
    ensures |r.recentLoans| <= 5 && |r.recentReturns| <= 5 && |r.popularBooks| <= 5
    ensures r.activeLoans == ActiveLoanCount(loans) && r.overdueLoans == OverdueLoanCount(loans, today)
    ensures r.recentLoans == RecentLoans(loans) && r.recentReturns == RecentReturns(loans)
    ensures r.popularBooks == PopularBooks(books, loans)
  {
    OverdueAtMostActive(loans, today);
    Dashboard(|books|, |members|, ActiveLoanCount(loans), OverdueLoanCount(loans, today),
              RecentLoans(loans), RecentReturns(loans), PopularBooks(books, loans))
  }

  /* ---------- book list and search (views.py:45-69, 171-199) ---------- */

  /** The book's title, its author's name or its ISBN contains `q`, ignoring case. */
  predicate BookMatches(b: Book, authors: seq<Author>, q: string) {
    || IContains(b.title, q)
    || (exists a | a in authors :: a.id == b.authorId && IContains(a.name, q))
    || IContains(b.isbn, q)
  }

  function MatchesBook(authors: seq<Author>, q: string): Book -> bool {
    (b: Book) => BookMatches(b, authors, q)
  }

  function InCategory(id: nat): Book -> bool {
    (b: Book) => id in b.categoryIds
  }

  /** `book_list`: a non-empty query keeps the matching books; a category
      parameter then keeps the books in that category; with neither, every
      book is listed. An absent and an empty query are both "". */
  function BookList(books: seq<Book>, authors: seq<Author>, query: string, category: Option<nat>): (r: seq<Book>)
    ensures forall b :: b in r <==>
      && b in books
      && (query != "" ==> BookMatches(b, authors, query))
      && (category.Some? ==> category.value in b.categoryIds)
    ensures |r| <= |books|
    ensures multiset(r) <= multiset(books)
    ensures query == "" && category.None? ==> r == books
  {
    var matching := if query != "" then Filter(books, MatchesBook(authors, query)) else books;
    var r := if category.Some? then Filter(matching, InCategory(category.value)) else matching;
    assert multiset(r) <= multiset(books) by {
      FilterSubMultiset(books, MatchesBook(authors, query));
      FilterSubMultiset(matching, InCategory(if category.Some? then category.value else 0));
    }
    r
  }

  /** `icontains` on a book matches regardless of the letter case of the query. */
  lemma BookMatchesIgnoresCase(b: Book, authors: seq<Author>, q: string)
    ensures BookMatches(b, authors, q) == BookMatches(b, authors, Upper(q))
  {
    IContainsIgnoresCase(b.title, q);
    IContainsIgnoresCase(b.isbn, q);
    forall a | a in authors ensures IContains(a.name, q) == IContains(a.name, Upper(q)) {
      IContainsIgnoresCase(a.name, q);
    }
  }

  /** A book is found by its own title. */
  lemma BookFoundByTitle(b: Book, authors: seq<Author>, books: seq<Book>)
    requires b in books && b.title != ""
    ensures b in BookList(books, authors, b.title, None)
  {
    IContainsSelf(b.title, b.title);
  }

  /** The member's first name, last name or e-mail contains `q`, ignoring case. */
  predicate MemberMatches(m: Member, q: string) {
    IContains(m.firstName, q) || IContains(m.lastName, q) || IContains(m.email, q)
  }

  function MatchesMember(q: string): Member -> bool {
    (m: Member) => MemberMatches(m, q)
  }

  function MatchesAuthor(q: string): Author -> bool {
    (a: Author) => IContains(a.name, q)
  }

  datatype SearchResults = SearchResults(books: seq<Book>, members: seq<Member>, authors: seq<Author>)

  /** `search`: no query gives no results at all (the results mapping stays
      empty); otherwise the first ten matching books, members and authors. */
  function Search(books: seq<Book>, authors: seq<Author>, members: seq<Member>, query: string): (r: Option<SearchResults>)
    ensures r.None? <==> query == ""
    ensures r.Some? ==>
      && |r.value.books| <= 10 && |r.value.members| <= 10 && |r.value.authors| <= 10
      && (forall b :: b in r.value.books ==> b in books && BookMatches(b, authors, query))
      && (forall m :: m in r.value.members ==> m in members && MemberMatches(m, query))
      && (forall a :: a in r.value.authors ==> a in authors && IContains(a.name, query))
    ensures r.Some? ==>
      && r.value.books <= Filter(books, MatchesBook(authors, query))
      && r.value.members <= Filter(members, MatchesMember(query))
      && r.value.authors <= Filter(authors, MatchesAuthor(query))
      && |r.value.books| == Min(10, |Filter(books, MatchesBook(authors, query))|)
      && |r.value.members| == Min(10, |Filter(members, MatchesMember(query))|)
      && |r.value.authors| == Min(10, |Filter(authors, MatchesAuthor(query))|)
  {
    if query == "" then None
    else
      var bs := Take(Filter(books, MatchesBook(authors, query)), 10);
      var ms := Take(Filter(members, MatchesMember(query)), 10);
      var as_ := Take(Filter(authors, MatchesAuthor(query)), 10);
      assert forall b :: b in bs ==> b in Filter(books, MatchesBook(authors, query));
      assert forall m :: m in ms ==> m in Filter(members, MatchesMember(query));
      assert forall a :: a in as_ ==> a in Filter(authors, MatchesAuthor(query));
      Some(SearchResults(bs, ms, as_))
  }

  /** When ten or fewer books match, the search lists every one of them. */
  lemma SearchListsAllFewMatches(books: seq<Book>, authors: seq<Author>, members: seq<Member>, query: string)
    requires query != ""
    requires |Filter(books, MatchesBook(authors, query))| <= 10
    ensures Search(books, authors, members, query).value.books == Filter(books, MatchesBook(authors, query))
  {
  }

  /* ---------- book detail (views.py:71-82) ---------- */

  function WithSlug(slug: string): Book -> bool {
    (b: Book) => b.slug == slug
  }

  datatype BookPage = BookPage(book: Book, activeLoans: seq<Loan>, loanHistory: seq<Loan>, isAvailable: bool)

  /** What the detail page of book `p.book` shows: its loans still out,
      none repeated; its ten latest loans, none repeated, latest first, with
      no loan of the book left out issued later than one shown; and whether a
      copy is on the shelf. */
  ghost predicate ShowsBook(p: BookPage, loans: seq<Loan>) {
    && (p.isAvailable <==> p.book.availableCopies > 0)
    && (forall l :: l in p.activeLoans <==> l in loans && l.bookId == p.book.id && IsActive(l))
    && multiset(p.activeLoans) <= multiset(loans)
    && |p.loanHistory| == Min(10, LoanCount(loans, p.book.id))
    && (forall l :: l in p.loanHistory ==> l in loans && l.bookId == p.book.id)
    && (forall i, j :: 0 <= i < j < |p.loanHistory| ==> p.loanHistory[i].issueDate >= p.loanHistory[j].issueDate)
    && multiset(p.loanHistory) <= multiset(loans)
    && (forall x, y :: x in loans && x.bookId == p.book.id && x !in p.loanHistory && y in p.loanHistory ==>
          IssuedLater(y, x))
  }

  /** `book.loans.order_by('-issue_date')[:10]`: the book's ten latest
      loans, none repeated, with no loan of the book left out issued later
      than one kept. */
  function LatestLoansOf(loans: seq<Loan>, id: nat): (h: seq<Loan>)
    ensures |h| == Min(10, LoanCount(loans, id))
    ensures forall l :: l in h ==> l in loans && l.bookId == id
    ensures forall i, j :: 0 <= i < j < |h| ==> h[i].issueDate >= h[j].issueDate
    ensures multiset(h) <= multiset(loans)
    ensures forall x, y :: x in loans && x.bookId == id && x !in h && y in h ==> IssuedLater(y, x)
  {
    var mine := Filter(loans, OfBook(id));
    var history := Take(SortBy(mine, IssuedLater), 10);
    assert && (forall l :: l in history ==> l in mine) && SortedBy(history, IssuedLater)
           && multiset(history) <= multiset(loans)
           && (forall x, y :: x in mine && x !in history && y in history ==> IssuedLater(y, x)) by {
      IssuedLaterTotal();
      TopK(mine, IssuedLater, 10);
      FilterSubMultiset(loans, OfBook(id));
    }
    history
  }

  /** The page `book_detail` renders for a book it has found. */
  function PageOf(book: Book, loans: seq<Loan>): (p: BookPage)
    ensures p.book == book && ShowsBook(p, loans)
  {
    var active := Filter(loans, ActiveOfBook(book.id));
    FilterSubMultiset(loans, ActiveOfBook(book.id));
    BookPage(book, active, LatestLoansOf(loans, book.id), book.availableCopies > 0)
  }

  /** `book_detail`: the only book with the slug (no book is a 404, several
      raise), shown as `ShowsBook` describes. */
  function BookDetail(books: seq<Book>, loans: seq<Loan>, slug: string): (r: Result<BookPage, DbError>)
    ensures r.Ok? <==> |Filter(books, WithSlug(slug))| == 1
    ensures r == Err(DoesNotExist) <==> forall b :: b in books ==> b.slug != slug
    ensures r == Err(MultipleObjectsReturned) <==> |Filter(books, WithSlug(slug))| > 1
    ensures r.Ok? ==> Filter(books, WithSlug(slug)) == [r.value.book] && ShowsBook(r.value, loans)
  {
    match Get(books, WithSlug(slug))
    case Err(e) => Err(e)
    case Ok(book) => Ok(PageOf(book, loans))
  }

  /* ---------- member list and detail (views.py:85-121) ---------- */

  /** The number of loans of member `id` that are still out. */
  function ActiveLoansOf(loans: seq<Loan>, id: nat): nat {
    |Filter(loans, ActiveOfMember(id))|
  }

  /** The number of loans member `id` ever took. */
  function TotalLoansOf(loans: seq<Loan>, id: nat): nat {
    |Filter(loans, OfMember(id))|
  }

  /** A member never has more loans out than loans taken. */
  lemma ActiveAtMostTotal(loans: seq<Loan>, id: nat)
    ensures ActiveLoansOf(loans, id) <= TotalLoansOf(loans, id)
  {
    FilterMonotone(loans, ActiveOfMember(id), OfMember(id));
  }

  /** A listed member with the `active_loans` and `total_loans` attributes
      the loop sets. */
  datatype MemberRow = MemberRow(member: Member, activeLoans: nat, totalLoans: nat)

  /** The members `member_list` shows: all of them, or those matching a
      non-empty query. */
  function ListedMembers(members: seq<Member>, query: string): (r: seq<Member>)
    ensures forall m :: m in r <==> m in members && (query != "" ==> MemberMatches(m, query))
    ensures multiset(r) <= multiset(members)
    ensures query == "" ==> r == members
  {
    FilterSubMultiset(members, MatchesMember(query));
    if query != "" then Filter(members, MatchesMember(query)) else members
  }

  /** `member_list`: the loop annotates every listed member with its loan
      counts and neither drops nor reorders a member. */
  method MemberList(members: seq<Member>, loans: seq<Loan>, query: string) returns (rows: seq<MemberRow>)
    ensures var listed := ListedMembers(members, query);
      && |rows| == |listed|
      && forall i :: 0 <= i < |rows| ==>
           && rows[i].member == listed[i]
           && rows[i].activeLoans == ActiveLoansOf(loans, listed[i].id)
           && rows[i].totalLoans == TotalLoansOf(loans, listed[i].id)
    ensures forall row :: row in rows ==> row.activeLoans <= row.totalLoans
  {
    var listed := ListedMembers(members, query);
    rows := [];
    var i := 0;
    while i < |listed|
      invariant 0 <= i <= |listed| && |rows| == i
      invariant forall k :: 0 <= k < i ==>
        && rows[k].member == listed[k]
        && rows[k].activeLoans == ActiveLoansOf(loans, listed[k].id)
        && rows[k].totalLoans == TotalLoansOf(loans, listed[k].id)
      invariant forall row :: row in rows ==> row.activeLoans <= row.totalLoans
    {
      var m := listed[i];
      ActiveAtMostTotal(loans, m.id);
      rows := rows + [MemberRow(m, ActiveLoansOf(loans, m.id), TotalLoansOf(loans, m.id))];
      i := i + 1;
    }
  }

  /** The sum of the fines' amounts; amounts that are never negative sum to
      a total that is not negative either. */
  function Sum(fines: seq<Fine>): (r: int)
    ensures (forall f :: f in fines ==> f.amount >= 0) ==> r >= 0
  {
    if fines == [] then 0 else fines[0].amount + Sum(fines[1..])
  }

  /** The total of the amounts of the fines satisfying `p`, one fine at a time. */
  function SumWhere(fines: seq<Fine>, p: Fine -> bool): int {
    if fines == [] then 0
    else (if p(fines[0]) then fines[0].amount else 0) + SumWhere(fines[1..], p)
  }

  /** Summing the filtered fines is summing the amounts of the fines that
      pass the filter. */
  lemma {:induction false} SumOfFilter(fines: seq<Fine>, p: Fine -> bool)
    ensures Sum(Filter(fines, p)) == SumWhere(fines, p)
  {
    if fines != [] {
      SumOfFilter(fines[1..], p);
      assert Filter(fines, p) == (if p(fines[0]) then [fines[0]] else []) + Filter(fines[1..], p);
      SumAppend(if p(fines[0]) then [fines[0]] else [], Filter(fines[1..], p));
    }
  }

  lemma {:induction false} SumAppend(a: seq<Fine>, b: seq<Fine>)
    ensures Sum(a + b) == Sum(a) + Sum(b)
  {
    if a == [] {
      assert a + b == b;
    } else {
      assert (a + b)[1..] == a[1..] + b;
      SumAppend(a[1..], b);
    }
  }

  /** `Fine.objects.filter(loan__member=member, paid=False)`: the fine is
      unpaid and belongs to a loan of member `id`. */
  predicate UnpaidFineOf(f: Fine, loans: seq<Loan>, id: nat) {
    !f.paid && exists l | l in loans :: l.id == f.loanId && l.memberId == id
  }

  function UnpaidOf(loans: seq<Loan>, id: nat): Fine -> bool {
    (f: Fine) => UnpaidFineOf(f, loans, id)
  }

  function WithId(id: nat): Member -> bool {
    (m: Member) => m.id == id
  }

  datatype MemberPage = MemberPage(
    member: Member,
    activeLoans: seq<Loan>,
    loanHistory: seq<Loan>,
    unpaidFines: seq<Fine>,
    totalUnpaidFines: int)

  /** `member_detail`: the member with the key, its loans still out, all its
      loans latest first, its unpaid fines and their total. */
  function MemberDetail(members: seq<Member>, loans: seq<Loan>, fines: seq<Fine>, pk: nat): (r: Result<MemberPage, DbError>)
    ensures r.Ok? <==> |Filter(members, WithId(pk))| == 1
    ensures r == Err(DoesNotExist) <==> forall m :: m in members ==> m.id != pk
    ensures r.Err? ==> r.error == DoesNotExist || r.error == MultipleObjectsReturned
    ensures r.Ok? ==> var p := r.value;
      && p.member in members && p.member.id == pk
      && (forall l :: l in p.activeLoans <==> l in loans && l.memberId == pk && IsActive(l))
      && multiset(p.activeLoans) <= multiset(loans)
      && multiset(p.loanHistory) == multiset(Filter(loans, OfMember(pk)))
      && (forall i, j :: 0 <= i < j < |p.loanHistory| ==> p.loanHistory[i].issueDate >= p.loanHistory[j].issueDate)
      && (forall f :: f in p.unpaidFines <==> f in fines && UnpaidFineOf(f, loans, pk))
      && multiset(p.unpaidFines) <= multiset(fines)
      && p.totalUnpaidFines == SumWhere(fines, UnpaidOf(loans, pk))
      && (p.unpaidFines == [] ==> p.totalUnpaidFines == 0)
      && ((forall f :: f in fines ==> f.amount >= 0) ==> p.totalUnpaidFines >= 0)
  {
    match Get(members, WithId(pk))
    case Err(e) => Err(e)
    case Ok(member) =>
      var unpaid := Filter(fines, UnpaidOf(loans, pk));
      SumOfFilter(fines, UnpaidOf(loans, pk));
      FilterSubMultiset(loans, ActiveOfMember(pk));
      FilterSubMultiset(fines, UnpaidOf(loans, pk));
      assert SortedBy(SortBy(Filter(loans, OfMember(pk)), IssuedLater), IssuedLater) by {
        IssuedLaterTotal();
        SortBySorted(Filter(loans, OfMember(pk)), IssuedLater);
      }
      Ok(MemberPage(member, Filter(loans, ActiveOfMember(pk)), SortBy(Filter(loans, OfMember(pk)), IssuedLater),
                    unpaid, Sum(unpaid)))
  }

  /* ---------- loan lists (views.py:124-151) ---------- */

  /** An active loan with the `is_overdue` and `days_overdue` attributes
      `loan_list` sets. */
  datatype LoanRow = LoanRow(loan: Loan, isOverdue: bool, daysOverdue: int)

  /** The loans still out, earliest due first. */
  function ActiveByDue(loans: seq<Loan>): (r: seq<Loan>)
    ensures forall l :: l in r <==> l in loans && IsActive(l)
    ensures multiset(r) == multiset(Filter(loans, IsActive))
    ensures forall i, j :: 0 <= i < j < |r| ==> r[i].dueDate <= r[j].dueDate
  {
    var active := Filter(loans, IsActive);
    var r := SortBy(active, DueBefore);
    assert SortedBy(r, DueBefore) by {
      DueBeforeTotal();
      SortBySorted(active, DueBefore);
    }
    r
  }

  /** `loan_list`: every loan still out, earliest due first, each marked
      overdue exactly when due before today, with the days it is late. */
  method LoanList(loans: seq<Loan>, today: int) returns (rows: seq<LoanRow>)
    ensures |rows| == |ActiveByDue(loans)|
    ensures forall i :: 0 <= i < |rows| ==> rows[i].loan == ActiveByDue(loans)[i]
    ensures forall l :: (exists row :: row in rows && row.loan == l) <==> l in loans && IsActive(l)
    ensures forall i, j :: 0 <= i < j < |rows| ==> rows[i].loan.dueDate <= rows[j].loan.dueDate
    ensures forall row :: row in rows ==>
      && (row.isOverdue <==> row.loan.dueDate < today)
      && row.daysOverdue == (if row.isOverdue then today - row.loan.dueDate else 0)
      && row.daysOverdue >= 0
      && (row.daysOverdue > 0 <==> row.isOverdue)
  {
    var active := ActiveByDue(loans);
    rows := [];
    var i := 0;
    while i < |active|
      invariant 0 <= i <= |active| && |rows| == i
      invariant forall k :: 0 <= k < i ==> rows[k].loan == active[k]
      invariant forall row :: row in rows ==>
        && (row.isOverdue <==> row.loan.dueDate < today)
        && row.daysOverdue == (if row.isOverdue then today - row.loan.dueDate else 0)
    {
      var loan := active[i];
      var isOverdue := loan.dueDate < today;
      var days := if isOverdue then today - loan.dueDate else 0;
      rows := rows + [LoanRow(loan, isOverdue, days)];
      i := i + 1;
    }
    forall l | l in loans && IsActive(l) ensures exists row :: row in rows && row.loan == l {
      var k :| 0 <= k < |active| && active[k] == l;
      assert rows[k] in rows;
    }
  }

  /** An overdue loan with the `days_overdue` attribute `overdue_loans` sets. */
  datatype OverdueRow = OverdueRow(loan: Loan, daysOverdue: int)

  /** The loans still out and due before today, earliest due first. */
  function OverdueByDue(loans: seq<Loan>, today: int): (r: seq<Loan>)
    ensures forall l :: l in r <==> l in loans && IsOverdue(l, today)
    ensures multiset(r) == multiset(Filter(loans, OverdueOn(today)))
    ensures forall i, j :: 0 <= i < j < |r| ==> r[i].dueDate <= r[j].dueDate
  {
    var overdue := Filter(loans, OverdueOn(today));
    var r := SortBy(overdue, DueBefore);
    assert SortedBy(r, DueBefore) by {
      DueBeforeTotal();
      SortBySorted(overdue, DueBefore);
    }
    r
  }

  /** `overdue_loans`: exactly the loans still out and due before today,
      earliest due first, each at least one day late; a returned loan never
      appears. */
  method OverdueLoans(loans: seq<Loan>, today: int) returns (rows: seq<OverdueRow>)
    ensures |rows| == |OverdueByDue(loans, today)|
    ensures forall i :: 0 <= i < |rows| ==> rows[i].loan == OverdueByDue(loans, today)[i]
    ensures forall l :: (exists row :: row in rows && row.loan == l) <==> l in loans && IsOverdue(l, today)
    ensures forall i, j :: 0 <= i < j < |rows| ==> rows[i].loan.dueDate <= rows[j].loan.dueDate
    ensures forall row :: row in rows ==>
      row.daysOverdue == today - row.loan.dueDate && row.daysOverdue >= 1 && !IsReturned(row.loan)
  {
    var overdue := OverdueByDue(loans, today);
    rows := [];
    var i := 0;
    while i < |overdue|
      invariant 0 <= i <= |overdue| && |rows| == i
      invariant forall k :: 0 <= k < i ==> rows[k] == OverdueRow(overdue[k], today - overdue[k].dueDate)
    {
      rows := rows + [OverdueRow(overdue[i], today - overdue[i].dueDate)];
      i := i + 1;
    }
    forall l | l in loans && IsOverdue(l, today) ensures exists row :: row in rows && row.loan == l {
      var k :| 0 <= k < |overdue| && overdue[k] == l;
      assert rows[k] in rows;
    }
    forall row | row in rows
      ensures row.daysOverdue == today - row.loan.dueDate && row.daysOverdue >= 1 && !IsReturned(row.loan)
    {
      var k :| 0 <= k < |rows| && rows[k] == row;
      assert overdue[k] in overdue;
    }
  }

  /** The loan list marks as overdue exactly the loans the overdue page lists. */
  lemma OverdueRowsAreMarkedRows(loans: seq<Loan>, today: int, l: Loan)
    requires l in ActiveByDue(loans)
    ensures (l.dueDate < today) <==> l in OverdueByDue(loans, today)
  {
  }

  /* ---------- author and category lists (views.py:154-168) ---------- */

  /** Lexicographic order on names, character by character. */
  predicate NameLe(s: string, t: string) {
    if s == [] then true
    else if t == [] then false
    else if s[0] != t[0] then s[0] < t[0]
    else NameLe(s[1..], t[1..])
  }

  lemma {:induction false} NameLeTotal(s: string, t: string)
    ensures NameLe(s, t) || NameLe(t, s)
  {
    if s != [] && t != [] && s[0] == t[0] {
      NameLeTotal(s[1..], t[1..]);
    }
  }

  lemma {:induction false} NameLeTransitive(s: string, t: string, u: string)
    requires NameLe(s, t) && NameLe(t, u)
    ensures NameLe(s, u)
  {
    if s != [] && t != [] && u != [] && s[0] == t[0] && t[0] == u[0] {
      NameLeTransitive(s[1..], t[1..], u[1..]);
    }
  }

  /** A name never sorts after a longer name it begins. */
  lemma {:induction false} NameLePrefix(s: string, t: string)
    requires s <= t
    ensures NameLe(s, t)
  {
    if s != [] {
      NameLePrefix(s[1..], t[1..]);
    }
  }

  /** A record with its `Count('book')` annotation. */
  datatype Counted<T> = Counted(item: T, bookCount: nat)

  predicate AuthorNameLe(a: Counted<Author>, b: Counted<Author>) { NameLe(a.item.name, b.item.name) }

  predicate CategoryNameLe(a: Counted<Category>, b: Counted<Category>) { NameLe(a.item.name, b.item.name) }

  lemma AuthorNameLeTotal()
    ensures TotalPreorder(AuthorNameLe)
  {
    forall a: Counted<Author>, b: Counted<Author> ensures AuthorNameLe(a, b) || AuthorNameLe(b, a) {
      NameLeTotal(a.item.name, b.item.name);
    }
    forall a: Counted<Author>, b: Counted<Author>, c: Counted<Author> | AuthorNameLe(a, b) && AuthorNameLe(b, c)
      ensures AuthorNameLe(a, c)
    {
      NameLeTransitive(a.item.name, b.item.name, c.item.name);
    }
  }

  lemma CategoryNameLeTotal()
    ensures TotalPreorder(CategoryNameLe)
  {
    forall a: Counted<Category>, b: Counted<Category> ensures CategoryNameLe(a, b) || CategoryNameLe(b, a) {
      NameLeTotal(a.item.name, b.item.name);
    }
    forall a: Counted<Category>, b: Counted<Category>, c: Counted<Category> | CategoryNameLe(a, b) && CategoryNameLe(b, c)
      ensures CategoryNameLe(a, c)
    {
      NameLeTransitive(a.item.name, b.item.name, c.item.name);
    }
  }

  function ByAuthor(id: nat): Book -> bool {
    (b: Book) => b.authorId == id
  }

  /** The number of books written by author `id`. */
  function BooksByAuthor(books: seq<Book>, id: nat): nat {
    |Filter(books, ByAuthor(id))|
  }

  /** The number of books filed under category `id`. */
  function BooksInCategory(books: seq<Book>, id: nat): nat {
    |Filter(books, InCategory(id))|
  }

  /** `Author.objects.annotate(book_count=Count('book'))`: each author in
      storage order with the number of its books. */
  function AuthorRows(authors: seq<Author>, books: seq<Book>): (r: seq<Counted<Author>>)
    ensures |r| == |authors|
    ensures forall i :: 0 <= i < |r| ==> r[i].item == authors[i] && r[i].bookCount == |Filter(books, ByAuthor(authors[i].id))|
  {
    seq(|authors|, i requires 0 <= i < |authors| => Counted(authors[i], BooksByAuthor(books, authors[i].id)))
  }

  /** Every category in storage order, annotated with the number of its
      books (`annotate(book_count=Count('book'))`). */
  function CategoryRows(categories: seq<Category>, books: seq<Book>): (r: seq<Counted<Category>>)
    ensures |r| == |categories|
    ensures forall i :: 0 <= i < |r| ==> r[i].item == categories[i] && r[i].bookCount == |Filter(books, InCategory(categories[i].id))|
  {
    seq(|categories|, i requires 0 <= i < |categories| => Counted(categories[i], BooksInCategory(books, categories[i].id)))
  }

  /** `author_list`: the annotated authors, each exactly once, by name. */
  function AuthorList(authors: seq<Author>, books: seq<Book>): (r: seq<Counted<Author>>)
    ensures |r| == |authors|
    ensures multiset(r) == multiset(AuthorRows(authors, books))
    ensures forall row :: row in r ==> row.item in authors && row.bookCount == BooksByAuthor(books, row.item.id)
    ensures forall i, j :: 0 <= i < j < |r| ==> NameLe(r[i].item.name, r[j].item.name)
  {
    var counted := AuthorRows(authors, books);
    var r := SortBy(counted, AuthorNameLe);
    assert SortedBy(r, AuthorNameLe) by {
      AuthorNameLeTotal();
      SortBySorted(counted, AuthorNameLe);
    }
    forall row | row in r ensures row.item in authors && row.bookCount == BooksByAuthor(books, row.item.id) {
      var i :| 0 <= i < |counted| && counted[i] == row;
    }
    r
  }

  /** `category_list`: the annotated categories, each exactly once, by name. */
  function CategoryList(categories: seq<Category>, books: seq<Book>): (r: seq<Counted<Category>>)
    ensures |r| == |categories|
    ensures multiset(r) == multiset(CategoryRows(categories, books))
    ensures forall row :: row in r ==> row.item in categories && row.bookCount == BooksInCategory(books, row.item.id)
    ensures forall i, j :: 0 <= i < j < |r| ==> NameLe(r[i].item.name, r[j].item.name)
  {
    var counted := CategoryRows(categories, books);
    var r := SortBy(counted, CategoryNameLe);
    assert SortedBy(r, CategoryNameLe) by {
      CategoryNameLeTotal();
      SortBySorted(counted, CategoryNameLe);
    }
    forall row | row in r ensures row.item in categories && row.bookCount == BooksInCategory(books, row.item.id) {
      var i :| 0 <= i < |counted| && counted[i] == row;
    }
    r
  }
}
